=== FILE: README.md ===
# ts-import-types-cli, modelled in Dafny

ts-import-types-cli rewrites the import declarations of TypeScript files. Every named
import whose definition is a `type` or an `interface` moves into an `import type { … }`
declaration. Everything else moves into a plain value import. Declarations of the same
module are merged.

This project models two pieces of the code:

- **`fixSourceFile`**, the rewrite of one file:
  - it scans the import declarations into one record per module path;
  - it decides which declarations are removed;
  - it synthesises zero to two replacement lines per module through a fixed decision table;
  - it inserts them at the top of the file.
- **The per-file part of `tsImportTypes`**, the batch loop. For each file it:
  - rewrites the file;
  - prints `-`, `✓`, `!` or `×` to the console;
  - previews or saves the new text;
  - remembers files that carry triple-slash directives;
  - isolates a failing file from the rest.

Modules, in dependency order:

| module | file | what it holds |
|---|---|---|
| `Wrappers` | `wrappers.dfy` | `Option` |
| `Syntax` | `syntax.dfy` | what the host parser gives the rewrite: import declarations, specifiers with their resolved definitions, the file as a sequence of import and non-import items |
| `AssocList` | `assoc_list.dfy` | the `imports` record object as an insertion-ordered association list, which is how `Object.entries` walks string keys |
| `Classify` | `classify.dfy` | the type/value rule, the displayed name (`name as alias`), the classification loop |
| `Scan` | `scan.dfy` | the loop over the declarations (get-or-create, default import, classification, removal flag), and an independent per-module-path reference definition of what it computes |
| `Synthesis` | `synthesis.dfy` | the decision table as structured lines, its inverse `Unplan`, rendering to text |
| `Rewrite` | `rewrite.dfy` | `Fix`, the whole rewrite of one file, with the inserted block and the text left over |
| `Scenarios` | `scenarios.dfy` | worked examples: concrete files and their exact rewrites |
| `Batch` | `batch.dfy` | the batch loop, console lines, writes, and the directives notice list |
| `PrototypeKeys` | `prototype_keys.dfy` | the rewrite as written, with `imports` as a plain `{}` that inherits `Object.prototype` (see Findings) |

The language service is an input to the model, not part of it. Each specifier arrives with
the definitions `getDefinitions()` returned, each a name and a kind. A default import is
present or absent (`Option`), because its node's truthiness is what raises the changed
flag. A record's default import is a string, and `""` means "none", as JavaScript string
truthiness has it in the decision table. The line terminator is a parameter.

Five consequences of the code are worth stating plainly:

- **A second run rewrites the file again.** Nothing marks a file as already rewritten.
  Any file with a default import, or with a named import that resolves, is rewritten on
  every run. The `import type` lines of the previous run are read back as named imports of
  types and synthesised again.
- **Removal follows a file-wide flag that is never lowered.** Every declaration from the
  first contributing one onwards is removed, including side-effect imports, whether or not
  it contributed anything. See `Scan.RemovedIffEarlierChange` and
  `Scenarios.SideEffectAfterChangeIsDropped`.
- **The inserted block is never empty.** `EOL + EOL` is inserted at offset 0 even when no
  line was synthesised. The driver then skips saving the file, because no line was
  synthesised. See `Scenarios.SideEffectOnly` and `Rewrite.UnchangedText`.
- **A namespace import next to a default import is lost.** The loop never reads the
  namespace binding, so `import D, * as ns from 'p'` becomes `import D from 'p'`. See
  `Scenarios.NamespaceImportDropped`.
- **"Nothing to do" means "no line".** The rewrite returns the synthesised lines and the
  directives, and nothing else. The driver treats an empty list of lines as "nothing to
  do".

## Model

The `AssocList.*`, `Scan.*`, `Rewrite.*`, `Synthesis.*` and `Scenarios.*` rows state
what the corrected rewrite `Rewrite.Fix` yields, with the records kept in a
prototype-free object. That equals the source's rewrite on every file without a module path
named after an `Object.prototype` method (`PrototypeKeys.AgreesOffPrototypePaths`). The
`Batch.*` rows run the rewrite as written, `PrototypeKeys.FixAsWritten`, so a file with
such a path fails there as it does in the source.

| member | source | states |
|---|---|---|
| AssocList.Get | src/index.ts:70 | `imports[modulePath]` finds a record iff the path is a key |
| AssocList.GetFound | src/index.ts:70 | the record `imports[modulePath]` finds is stored under that key |
| AssocList.GetStored | src/index.ts:70-74 | with no key stored twice, reading a stored key finds the value stored with it |
| AssocList.Put | src/index.ts:70-74 | storing under an existing key keeps the key order; a new key is appended last, as `Object.entries` lists string keys in insertion order; the stored value is read back |
| AssocList.PutOther | src/index.ts:70-74 | writing one module's record leaves every other module's record unchanged |
| AssocList.PutDistinct | src/index.ts:70-74 | the object never holds the same key twice |
| Classify.DisplayName | src/index.ts:83-88 | the shown name starts with the definition's name; it is longer iff there is a non-empty alias, and then the rest is exactly ` as alias` |
| Classify.DefNamesMembership | src/index.ts:86-96 | a name lands among the type entries iff some definition of kind `type` or `interface` shows under that name; it lands among the value entries iff some definition of any other kind does |
| Classify.DefNamesPartition | src/index.ts:86-96 | every definition yields exactly one entry: the two buckets together are a permutation of all shown names |
| Classify.SpecNamesCount | src/index.ts:81-98 | a declaration yields as many entries as its specifiers have definitions |
| Classify.ClassifySpecifier | src/index.ts:83-97 | the inner loop appends the value entries and the type entries of one specifier in definition order, and raises the flag iff the specifier has a definition |
| Classify.ClassifyInto | src/index.ts:81-98 | the classification loop of one declaration appends its bucketed entries to the record, and raises the flag iff some specifier resolves to a definition |
| Scan.ScanDeclarations | src/index.ts:62-103 | over a prototype-free object, the mutating loop computes exactly the fold `ScanAll`: the same records, the same flag and the same removal decisions |
| Scan.ScanOne | src/index.ts:70-102 | one pass of the loop body stores under the path its record (fetched or created) merged with the declaration's default import and entries, raises the flag iff it was up or the declaration contributes, and records that flag as the declaration's removal decision |
| Scan.FirstSeenCharacterised | src/index.ts:62-74 | the reference order of module paths lists every path of the file, each once, and a path comes before another iff it occurs before the other's first occurrence |
| Scan.ScanKeys | src/index.ts:70-74 | the scan's records are keyed by the module paths in first-seen order, without duplicates |
| Scan.ScanRecord | src/index.ts:70-98 | each module's record holds the value entries and, separately, the type entries of every declaration of that module, each list in file order; its default import is the last one written for the module |
| Scan.RecordEntryCount | src/index.ts:86-96 | a module's record has one entry per resolved definition of its declarations |
| Scan.NoRecordForUnseenPath | src/index.ts:70-74 | no record exists for a path no declaration imports from |
| Scan.ScanRemoved | src/index.ts:100-102 | declaration `i` is removed iff `i` is at or after the first contributing declaration; the file's flag is up iff some declaration contributes |
| Scan.RemovedIffEarlierChange | src/index.ts:44-102 | declaration `i` is removed iff some declaration at or before `i` contributes |
| Scan.RemovedMonotone | src/index.ts:76-102 | once a declaration is removed, every later declaration is removed too, and the file's flag ends up raised |
| Synthesis.ValueLine | src/index.ts:108-116 | at most one line carries the default import and the value entries; there is none iff both are absent |
| Synthesis.TypeLine | src/index.ts:117-119 | a type-only line exists iff there are type entries, and it lists them all |
| Synthesis.Plan | src/index.ts:108-119 | a record yields at most two lines, all for its module; none iff the record is empty; the type line is last and exists iff there are type entries |
| Synthesis.DefaultAndCodeRow | src/index.ts:108-110 | with a default import and value entries, the first line is `import D, { v, w } from 'p'`; a second line exists iff there are type entries |
| Synthesis.DefaultOnlyRow | src/index.ts:111-113 | with a default import and no value entries, the first line is `import D from 'p'`; a second line exists iff there are type entries |
| Synthesis.CodeOnlyRow | src/index.ts:114-116 | with value entries and no default import, the first line is `import { v, w } from 'p'`; a second line exists iff there are type entries |
| Synthesis.TypeRow | src/index.ts:117-119 | with type entries, the last line is `import type { T, U } from 'p'`, and it is the only line iff there is neither a default import nor a value entry |
| Synthesis.PlanRoundTrip | src/index.ts:108-119 | reading the synthesised lines back gives the record: the default import, the value entries and the type entries, in order |
| Synthesis.Join | src/index.ts:109 | `join` of no parts is empty, and of one part is that part |
| Synthesis.JoinAppend | src/index.ts:109 | joining one more part appends the separator and that part, so the parts come out in order with one separator between each two |
| Synthesis.RenderAll | src/index.ts:106-120 | one text line per synthesised line, in order |
| Synthesis.ModuleLinesEmpty | src/index.ts:107-119 | a module yields no text line iff its record is empty |
| Synthesis.AllLinesBound | src/index.ts:106-121 | at most two lines per module record |
| Synthesis.AllLinesLength | src/index.ts:106-121 | the number of lines is the sum over the records of the lines each one yields |
| Synthesis.AllLinesEmpty | src/index.ts:106-121 | no line at all iff every record is empty |
| Rewrite.DirectiveLines | src/index.ts:51-59 | one directive line per path, type and lib reference |
| Rewrite.InsertedText | src/index.ts:123 | with no line, the inserted block is still two line terminators |
| Rewrite.Fix | src/index.ts:42-133 | one removal decision per import declaration of the file |
| Rewrite.FixLines | src/index.ts:62-121 | the lines are, module by module in first-seen order, the lines of the merged record of all that module's declarations |
| Rewrite.FixLineBound | src/index.ts:106-121 | at most two lines per distinct module path of the file |
| Rewrite.ExpectedEmpty | src/index.ts:70-98 | a module's merged record is empty iff none of its declarations has a default import or a resolved named import |
| Rewrite.RecordsEmptyIffNoContribution | src/index.ts:62-103 | every record of the scan is empty iff no declaration contributes |
| Rewrite.NoLinesIffNoContribution | src/index.ts:62-121 | the rewrite synthesises no line iff no declaration has a default import or a resolved named import |
| Rewrite.NothingRemovedIffNoContribution | src/index.ts:76-102 | no declaration is removed iff none contributes |
| Rewrite.UnchangedIffNothingRemoved | src/index.ts:76-121 | no line is synthesised iff no declaration is removed |
| Rewrite.RemainingKeepsAll | src/index.ts:100-102 | removing nothing keeps the text as it was |
| Rewrite.RemainingDropsAll | src/index.ts:100-102 | removing every declaration leaves exactly the non-import text |
| Rewrite.UnchangedText | src/index.ts:123 | a file with no synthesised line keeps all its text, behind two line terminators |
| Scenarios.FixSingle | src/index.ts:62-121 | a file with one declaration yields the lines of that declaration's own record, and the declaration is removed iff it contributes |
| Scenarios.FixPair | src/index.ts:62-121 | two declarations of one module merge into one record; the second is removed if either contributes |
| Scenarios.MixedDefaultValueType | src/index.ts:76-119 | `import D, { v, T }` with `T` an interface becomes `import D, { v }` and `import type { T }`, and the original is removed |
| Scenarios.PureTypeCollapse | src/index.ts:81-123 | `import { T }` with `T` an interface becomes exactly `import type { T }`; the file text is that line, two terminators and the code |
| Scenarios.SideEffectOnly | src/index.ts:62-123 | `import 'p'` yields no line, is not removed, and the text only gains two leading line terminators |
| Scenarios.SameModuleMerge | src/index.ts:70-119 | `import D from 'p'` followed by `import { v, T } from 'p'` merges into the two lines of one module, and both originals are removed |
| Scenarios.AliasAndMergedDeclaration | src/index.ts:83-96 | a specifier `x as a` resolving to a class and an interface of the same name shows as `x as a` in both the value and the type line |
| Scenarios.DefaultOnlyImport | src/index.ts:76-78 | `import D from 'p'` alone is removed and re-emitted as exactly `import D from 'p'` |
| Scenarios.NamespaceImportDropped | src/index.ts:61-110 | `import D, * as ns from 'p'` is removed for its default import and re-emitted as exactly `import D from 'p'`: the namespace binding is lost |
| Scenarios.ValuesKeepSourceOrder | src/index.ts:81-116 | `import { b, a, c }`, all functions, becomes `import { b, a, c } from 'p'`: entries keep the order they were written in, separated by `, ` |
| Scenarios.SideEffectAfterChangeIsDropped | src/index.ts:100-102 | a side-effect import after a type import of the same module is removed too, and only the type line remains |
| Batch.Attempt | src/index.ts:154-155 | the rewrite of a file fails exactly when the host throws or some module path is named after an `Object.prototype` method; otherwise it yields the corrected rewrite |
| Batch.RunFile | src/index.ts:154-177 | for one file: `×` iff the rewrite or the save throws; `-` iff there is no line; `✓` iff there are lines; the `!` warning and the notice entry iff there are lines and directives; a preview iff there are lines on a dry run, and what it shows is the new text; a write iff there are lines, no dry run and the save succeeds; the `✓` line comes first, the warning second, and the preview or the `×` of a failed save last |
| Batch.ProcessFiles | src/index.ts:149-178 | the loop yields the fold `Run`; a path is in the notice list iff some file with that path was rewritten and carries directives |
| Batch.RunSplit | src/index.ts:153-178 | the batch over two runs of files is the batch over the first, then over the second |
| Batch.FailureIsolation | src/index.ts:153-178 | with each file's rewrite given, whatever happens to one file (its rewrite, its host failure, its save), every other file is handled exactly as before |
| Batch.WarnedPaths | src/index.ts:165-168 | the notice lists exactly the rewritten files that carry directives |
| Batch.WrittenFiles | src/index.ts:170-174 | the files written are exactly the rewritten files of a real run whose save succeeds, each with its new text |
| Batch.DryRunWritesNothing | src/index.ts:170-171 | a dry run writes no file |
| Batch.UntouchedFile | src/index.ts:157-161 | a file with nothing to classify is reported with `-`, or with `×` when one of its module paths is named after an `Object.prototype` method; either way it is neither previewed nor written |
| Batch.PrototypePathFailsFile | src/index.ts:154-177 | a file with a module path named after an `Object.prototype` method is reported with `×` only: no preview, no write, no directives notice |
| PrototypeKeys.Lookup | src/index.ts:70 | reading a key of `{}` gives the own record when there is one, and otherwise an inherited value iff the key names an `Object.prototype` method |
| PrototypeKeys.RawScanAgrees | src/index.ts:62-103 | away from prototype keys, the loop as written computes the same records, flag and removals as the corrected scan |
| PrototypeKeys.ThrowsOnPrototypePath | src/index.ts:70-119 | a declaration whose module path is an `Object.prototype` method name makes the rewrite as written throw |
| PrototypeKeys.AgreesOffPrototypePaths | src/index.ts:42-133 | away from prototype keys, the rewrite as written is the corrected rewrite |
| PrototypeKeys.FixAsWrittenCharacterised | src/index.ts:47-119 | the rewrite as written throws iff some module path is an `Object.prototype` method name, and otherwise equals the corrected rewrite |
| Scenarios.PrototypePathThrows | src/index.ts:70-92 | `import { T } from 'constructor'`, with `T` an interface, throws as written; the corrected rewrite yields `import type { T } from 'constructor'` |
| Scenarios.SideEffectPrototypePathThrows | src/index.ts:70-115 | even a side-effect `import 'toString'` throws as written, while the corrected rewrite leaves it alone |

## Left out

- `organizeImports` (src/index.ts:125-127) calls the TypeScript language service's refactoring. The model returns the text before that step.
- `tsImportTypesStdio` is left out. It is `fixSourceFile` with `organizeImports` forced on, plus project set-up.
- Project loading, globbing, `getRelativePath` and saving to disk are left out. The batch gets each file's rewrite and whether its save throws as inputs.
- The console messages are modelled as one constructor per kind of line. Colours are left out. The "Analysing", "Found", "Complete" messages and the text of the closing notice are left out; its list of files is modelled.
- Symbol resolution (`getDefinitions`, `getKind`, `getName`) is an input. A specifier carries the definitions the language service returned.
- A specifier whose symbol does not resolve arrives with no definitions, as `getDefinitions()` then returns none. Other host failures, such as a failed `remove`, `insertText` or refactoring, are left out. They appear only as the `hostThrows` input of `Batch.Attempt`.
- The line terminator `EOL` is an opaque parameter.
- All files share one in-memory project. `remove()` (src/index.ts:101) edits a file before a later step of the same file may throw, and a later file resolves its symbols against the edits of earlier files, partial ones included. The model takes each file's resolved definitions and rewrite as inputs fixed in advance. `Batch.FailureIsolation` holds for those fixed rewrites, and says nothing about how one file's edits change another file's resolution.
- The text of a removed declaration is dropped whole. The trivia `remove()` moves or keeps is left out.
- A dry-run preview prints `getText()`, which excludes leading trivia. The model previews the full new text.
- `Object.entries` lists integer-like keys (`'1'`, `'42'`) first, in numeric order, before the other keys. The model lists every key in insertion order, so it is wrong for a module named by a canonical array index.
- Of the prototype keys, only the function-valued `Object.prototype` members are modelled. `__proto__` behaves differently and is left out. Reading `imports['__proto__']` yields `Object.prototype` itself, which is truthy, so no record is created. A default import from `'__proto__'` is written onto `Object.prototype` (src/index.ts:77), and no line is emitted for it. A resolved named import from it throws at `.typeImports.push` or `.codeImports.push` (src/index.ts:92 or 95).
- Rewrite.Fix: its contract only says there is one removal decision per declaration. What the rewrite yields is stated by `Rewrite.FixLines`, `Rewrite.NoLinesIffNoContribution`, `Scan.ScanRemoved` and `Rewrite.UnchangedText`.
- PrototypeKeys.FixAsWritten (src/index.ts:42-133): carries no contract of its own. It is `fixSourceFile` as written, and `PrototypeKeys.FixAsWrittenCharacterised` states what it yields: it throws iff some module path names an `Object.prototype` method, and otherwise equals `Rewrite.Fix`.
- PrototypeKeys.RawStep and PrototypeKeys.RawScanAll (src/index.ts:62-103): carry no contract beyond the length of the removal list. They are the scan loop over a plain `{}`, stated by `PrototypeKeys.RawScanAgrees`, `PrototypeKeys.InheritedSticks` and `PrototypeKeys.ThrowsOnPrototypePath`.
- PrototypeKeys.RawLines (src/index.ts:106-121): carries no contract of its own. It is the synthesis over `Object.entries` of such an object, stated by `PrototypeKeys.RawLinesAgree` and `PrototypeKeys.RawLinesThrow`.
- Scan.ScanAll (src/index.ts:62-103): its contract only says there is one removal decision per declaration. What it computes is stated by `Scan.ScanKeys`, `Scan.ScanRecord` and `Scan.ScanRemoved`.
- Scan.Step, Scan.Merge and Scan.RecordFor (src/index.ts:70-102): carry no contract of their own. They are one iteration of the scan loop, and `Scan.ScanRecord`, `Scan.ScanRemoved` and `Scan.ScanOne` state what they compute.
- Classify.BucketOf (src/index.ts:90): carries no contract of its own. The kind test is stated by `Classify.DefNamesMembership`.
- Rewrite.Remaining (src/index.ts:101): carries no contract beyond its requires. The text left after the removals is stated by `Rewrite.RemainingKeepsAll` and `Rewrite.RemainingDropsAll`.
- Synthesis.ModuleLines and Synthesis.AllLines (src/index.ts:106-121): carry no contract of their own. They are stated by `Synthesis.ModuleLinesEmpty`, `Synthesis.AllLinesBound`, `Synthesis.AllLinesLength`, `Synthesis.AllLinesEmpty` and `Rewrite.FixLines`.
- Batch.Run (src/index.ts:153-178): carries no contract of its own. It is the fold `Batch.ProcessFiles` computes, and is stated by `Batch.RunSplit`, `Batch.FailureIsolation`, `Batch.WarnedPaths` and `Batch.WrittenFiles`.
- Synthesis.Render: carries no contract of its own. Its four text shapes are stated for every record by `Synthesis.DefaultAndCodeRow`, `Synthesis.DefaultOnlyRow`, `Synthesis.CodeOnlyRow` and `Synthesis.TypeRow`. The separator between entries is stated by `Synthesis.JoinAppend`.

## Findings

| source | as written | input that shows it | evidently intended | confidence | as-written member | corrected member |
|---|---|---|---|---|---|---|
| src/index.ts:47-119 | `imports` is a plain `{}`. `imports[modulePath] \|\| {…}` returns the inherited `Object.prototype` function when the module path is `constructor`, `toString`, `valueOf`, …. That function has no `typeImports`, `codeImports` or `defaultImport`, so `.push` (line 92 or 95) or `.length` (lines 108-118) throws `TypeError`. The whole file is then reported `×`. | `import { T } from 'constructor'` with `T` an interface, or the side-effect `import 'toString'` | a prototype-free map (`Object.create(null)` or `Map`), which yields `import type { T } from 'constructor'` | not executed | Scenarios.PrototypePathThrows | Rewrite.Fix, proved by Rewrite.FixLines and PrototypeKeys.FixAsWrittenCharacterised |

=== FILE: assoc_list.dfy ===
/**
 * An insertion-ordered map as an association list: the model of a JavaScript object
 * whose keys are enumerated by `Object.entries` in the order they were first assigned.
 */
module AssocList {
  import opened Wrappers

  datatype Pair<K, V> = Pair(key: K, value: V)

  /** The keys, in insertion order. */
  function Keys<K, V>(m: seq<Pair<K, V>>): (ks: seq<K>)
    ensures |ks| == |m|
    ensures forall i :: 0 <= i < |m| ==> ks[i] == m[i].key
  {
    if |m| == 0 then [] else [m[0].key] + Keys(m[1..])
  }

  /** No key is stored twice. */
  predicate DistinctKeys<K(==), V>(m: seq<Pair<K, V>>)
  {
    forall i, j :: 0 <= i < j < |m| ==> m[i].key != m[j].key
  }

  /** The value stored under `k`, if any. */
  function Get<K(==), V>(m: seq<Pair<K, V>>, k: K): (r: Option<V>)
    ensures r.None? <==> k !in Keys(m)
  {
    if |m| == 0 then None
    else if m[0].key == k then Some(m[0].value)
    else Get(m[1..], k)
  }

  /** A value that lookup finds is stored under the key looked up. */
  lemma {:induction false} GetFound<K, V>(m: seq<Pair<K, V>>, k: K)
    ensures Get(m, k).Some? ==> Pair(k, Get(m, k).value) in m
  {
    if |m| > 0 && m[0].key != k {
      GetFound(m[1..], k);
    }
  }

  /** Assignment `m[k] = v`: an existing key keeps its position, a new key goes last. */
  function Put<K(==), V>(m: seq<Pair<K, V>>, k: K, v: V): (r: seq<Pair<K, V>>)
    ensures k in Keys(m) ==> Keys(r) == Keys(m)
    ensures k !in Keys(m) ==> Keys(r) == Keys(m) + [k]
    ensures Get(r, k) == Some(v)
  {
    if |m| == 0 then [Pair(k, v)]
    else if m[0].key == k then
      var r := [Pair(k, v)] + m[1..];
      assert r[1..] == m[1..];
      r
    else
      var rest := Put(m[1..], k, v);
      PutCons(m[0], m[1..], rest, k, v);
      assert m == [m[0]] + m[1..];
      [m[0]] + rest
  }

  /** Assignment behind a head with another key: the head stays in front. */
  lemma PutCons<K, V>(p: Pair<K, V>, t: seq<Pair<K, V>>, rest: seq<Pair<K, V>>, k: K, v: V)
    requires p.key != k
    requires k in Keys(t) ==> Keys(rest) == Keys(t)
    requires k !in Keys(t) ==> Keys(rest) == Keys(t) + [k]
    requires Get(rest, k) == Some(v)
    ensures k in Keys([p] + t) ==> Keys([p] + rest) == Keys([p] + t)
    ensures k !in Keys([p] + t) ==> Keys([p] + rest) == Keys([p] + t) + [k]
    ensures Get([p] + rest, k) == Some(v)
  {
    assert ([p] + t)[1..] == t;
    assert ([p] + rest)[1..] == rest;
  }

  /** With distinct keys, looking up a stored key finds the value stored with it. */
  lemma {:induction false} GetStored<K, V>(m: seq<Pair<K, V>>, i: nat)
    requires DistinctKeys(m) && i < |m|
    ensures Get(m, m[i].key) == Some(m[i].value)
  {
    if i > 0 {
      assert m[1..][i - 1] == m[i];
      GetStored(m[1..], i - 1);
    }
  }

  /** Assignment leaves every other key's value alone. */
  lemma {:induction false} PutOther<K, V>(m: seq<Pair<K, V>>, k: K, v: V, other: K)
    requires other != k
    ensures Get(Put(m, k, v), other) == Get(m, other)
  {
    if |m| > 0 && m[0].key != k {
      PutOther(m[1..], k, v, other);
      assert Put(m, k, v)[1..] == Put(m[1..], k, v);
    } else if |m| > 0 {
      assert Put(m, k, v)[1..] == m[1..];
    }
  }

  /** Assignment keeps the keys distinct. */
  lemma PutDistinct<K, V>(m: seq<Pair<K, V>>, k: K, v: V)
    requires DistinctKeys(m)
    ensures DistinctKeys(Put(m, k, v))
  {
    var r := Put(m, k, v);
    assert forall i :: 0 <= i < |r| ==> Keys(r)[i] == r[i].key;
    assert forall i :: 0 <= i < |m| ==> Keys(m)[i] == m[i].key;
  }
}

=== FILE: batch.dfy ===
/**
 * The batch driver: every matched file is rewritten in turn, reported on the console,
 * written back unless this is a dry run, and remembered when it carries triple-slash
 * directives. A file that throws is reported and the batch moves on.
 */
module Batch {
  import opened Wrappers
  import opened Syntax
  import opened AssocList
  import opened Scan
  import opened Rewrite
  import opened PrototypeKeys

  /** One file of the batch: what its rewrite yielded (`None` when the rewrite threw),
      and whether writing the file back throws, which the model cannot see. */
  datatype FileTask = FileTask(path: string, fixed: Option<FixResult>, saveThrows: bool)

  /** The rewrite of one file as the batch sees it: the rewrite as written, or `None`
      when the host throws while the file is being rewritten (a resolver or refactoring
      failure). It fails exactly when the host throws or a module path is named after an
      inherited method, and otherwise yields the corrected rewrite. */
  function Attempt(file: SourceFile, hostThrows: bool, eol: string): (r: Option<FixResult>)
    ensures r.None? <==> hostThrows || HasPrototypePath(file)
    ensures r.Some? ==> r.value == Fix(file, eol)
  {
    FixAsWrittenCharacterised(file, eol);
    if hostThrows then None else FixAsWritten(file, eol)
  }

  /** The console lines about one file, one constructor per kind of line. */
  datatype LogLine =
    | Untouched(path: string)        // `- path`: nothing to do
    | Rewritten(path: string)        // `✓ path`
    | DirectivesWarning              // `! contains triple-slash directives`
    | Preview(text: string)          // the new text, on a dry run
    | Failed(path: string)           // `× path`: something threw

  /** What the batch leaves behind: the console lines, the files remembered for the
      closing directives notice, and the files written back with their new text. */
  datatype Outcome = Outcome(log: seq<LogLine>, warned: seq<string>, written: seq<Pair<string, string>>)

  const Nothing := Outcome([], [], [])

  /** Two outcomes, one after the other. */
  function Then(a: Outcome, b: Outcome): Outcome
  {
    Outcome(a.log + b.log, a.warned + b.warned, a.written + b.written)
  }

  /** A file is rewritten when the host does not throw and at least one line is
      synthesised for it. */
  predicate Rewrites(t: FileTask)
  {
    t.fixed.Some? && t.fixed.value.rewrittenImports != []
  }

  /** A rewritten file that carries reference directives is remembered for the notice. */
  predicate Warns(t: FileTask)
  {
    Rewrites(t) && t.fixed.value.rewrittenDirectives != []
  }

  /** A rewritten file is written back unless this is a dry run or the write throws. */
  predicate Writes(t: FileTask, dryRun: bool)
  {
    Rewrites(t) && !dryRun && !t.saveThrows
  }

  /** The console shows a preview of some text. */
  predicate Previews(log: seq<LogLine>)
  {
    exists i :: 0 <= i < |log| && log[i].Preview?
  }

  /** The handling of one file inside the batch's try/catch. The `✓` line and the
      directives warning come before the write, so a failed write leaves both of them and
      adds a `×` line; the file stays remembered for the notice. */
  function RunFile(t: FileTask, dryRun: bool): (o: Outcome)
    ensures o.warned == (if Warns(t) then [t.path] else [])
    ensures o.written == (if Writes(t, dryRun) then [Pair(t.path, t.fixed.value.text)] else [])
    ensures Failed(t.path) in o.log <==> t.fixed.None? || (Rewrites(t) && !dryRun && t.saveThrows)
    ensures Untouched(t.path) in o.log <==> t.fixed.Some? && !Rewrites(t)
    ensures Rewritten(t.path) in o.log <==> Rewrites(t)
    ensures DirectivesWarning in o.log <==> Warns(t)
    ensures Previews(o.log) <==> Rewrites(t) && dryRun
    ensures Rewrites(t) && dryRun ==> Preview(t.fixed.value.text) in o.log
    ensures forall i :: 0 <= i < |o.log| && o.log[i].Preview? ==> Rewrites(t) && o.log[i].text == t.fixed.value.text
    ensures |o.log| == if Rewrites(t) then 1 + (if Warns(t) then 1 else 0) + (if dryRun || t.saveThrows then 1 else 0) else 1
    ensures Rewrites(t) ==> o.log[0] == Rewritten(t.path)
    ensures Warns(t) ==> |o.log| >= 2 && o.log[1] == DirectivesWarning
    ensures Rewrites(t) && (dryRun || t.saveThrows) ==>
              o.log[|o.log| - 1] == if dryRun then Preview(t.fixed.value.text) else Failed(t.path)
  {
    match t.fixed
    case None => Outcome([Failed(t.path)], [], [])
    case Some(r) =>
      if r.rewrittenImports == [] then Outcome([Untouched(t.path)], [], [])
      else
        var warn := r.rewrittenDirectives != [];
        var head := [Rewritten(t.path)] + (if warn then [DirectivesWarning] else []);
        var warned := if warn then [t.path] else [];
        if dryRun then
          var log := head + [Preview(r.text)];
          assert log[|head|].Preview?;
          Outcome(log, warned, [])
        else if t.saveThrows then Outcome(head + [Failed(t.path)], warned, [])
        else Outcome(head, warned, [Pair(t.path, r.text)])
  }

  /** The batch over all files, in order. */
  function Run(tasks: seq<FileTask>, dryRun: bool): Outcome
  {
    if |tasks| == 0 then Nothing
    else Then(Run(tasks[..|tasks| - 1], dryRun), RunFile(tasks[|tasks| - 1], dryRun))
  }

  /** The imperative loop of `tsImportTypes`: one pass over the files, appending to the
      console and to the list of files with directives. */
  method ProcessFiles(tasks: seq<FileTask>, dryRun: bool)
    returns (log: seq<LogLine>, warned: seq<string>, written: seq<Pair<string, string>>)
    ensures Outcome(log, warned, written) == Run(tasks, dryRun)
    ensures forall p :: p in warned <==> exists i :: 0 <= i < |tasks| && tasks[i].path == p && Warns(tasks[i])
  {
    log, warned, written := [], [], [];
    var i := 0;
    while i < |tasks|
      invariant 0 <= i <= |tasks|
      invariant Outcome(log, warned, written) == Run(tasks[..i], dryRun)
    {
      var o := RunFile(tasks[i], dryRun);
      log, warned, written := log + o.log, warned + o.warned, written + o.written;
      assert tasks[..i + 1][..i] == tasks[..i];
      i := i + 1;
    }
    assert tasks[..i] == tasks;
    WarnedPaths(tasks, dryRun);
  }

  // ---------------------------------------------------------------------------------
  // Properties of the batch.
  // ---------------------------------------------------------------------------------

  /** The batch over two runs of files is the batch over the first, then the batch over
      the second: no file's handling depends on what happened to the files before it. */
  lemma {:induction false} RunSplit(a: seq<FileTask>, b: seq<FileTask>, dryRun: bool)
    ensures Run(a + b, dryRun) == Then(Run(a, dryRun), Run(b, dryRun))
  {
    if |b| == 0 {
      assert a + b == a;
      ThenNothing(Run(a, dryRun));
    } else {
      var n := |b|;
      var init := b[..n - 1];
      assert (a + b)[..|a + b| - 1] == a + init;
      assert (a + b)[|a + b| - 1] == b[n - 1];
      RunSplit(a, init, dryRun);
      ThenAssoc(Run(a, dryRun), Run(init, dryRun), RunFile(b[n - 1], dryRun));
    }
  }

  lemma ThenNothing(x: Outcome)
    ensures Then(x, Nothing) == x
  {
    assert x.log + [] == x.log && x.warned + [] == x.warned && x.written + [] == x.written;
  }

  lemma ThenAssoc(x: Outcome, y: Outcome, z: Outcome)
    ensures Then(Then(x, y), z) == Then(x, Then(y, z))
  {
    assert x.log + y.log + z.log == x.log + (y.log + z.log);
    assert x.warned + y.warned + z.warned == x.warned + (y.warned + z.warned);
    assert x.written + y.written + z.written == x.written + (y.written + z.written);
  }

  /** Failure isolation: with every file's rewrite given as an input, whatever happens to
      file `j` (the host throws, the write throws, anything else about it changes), the
      files before it and after it are handled exactly as before, and file `j`'s own
      handling sits between them. */
  lemma FailureIsolation(tasks: seq<FileTask>, j: nat, t: FileTask, dryRun: bool)
    requires j < |tasks|
    ensures Run(tasks[j := t], dryRun)
            == Then(Then(Run(tasks[..j], dryRun), RunFile(t, dryRun)), Run(tasks[j + 1..], dryRun))
  {
    var changed := tasks[j := t];
    assert changed == tasks[..j] + [t] + tasks[j + 1..];
    RunSplit(tasks[..j] + [t], tasks[j + 1..], dryRun);
    RunSplit(tasks[..j], [t], dryRun);
    assert [t][..0] == [];
  }

  /** The files remembered for the directives notice are exactly the rewritten files that
      carry reference directives, each listed once per occurrence, in batch order. */
  lemma {:induction false} WarnedPaths(tasks: seq<FileTask>, dryRun: bool)
    ensures forall p :: p in Run(tasks, dryRun).warned
                    <==> exists i :: 0 <= i < |tasks| && tasks[i].path == p && Warns(tasks[i])
  {
    if |tasks| > 0 {
      var n := |tasks|;
      var init := tasks[..n - 1];
      WarnedPaths(init, dryRun);
      assert forall i :: 0 <= i < n - 1 ==> init[i] == tasks[i];
      forall p | exists i :: 0 <= i < n && tasks[i].path == p && Warns(tasks[i])
        ensures p in Run(tasks, dryRun).warned
      {
        var i :| 0 <= i < n && tasks[i].path == p && Warns(tasks[i]);
        if i < n - 1 {
          assert init[i].path == p && Warns(init[i]);
        }
      }
    }
  }

  /** The files written back are exactly the rewritten files of a real run whose write
      succeeds, each with its new text. */
  lemma {:induction false} WrittenFiles(tasks: seq<FileTask>, dryRun: bool)
    ensures forall w :: w in Run(tasks, dryRun).written
                    <==> exists i :: 0 <= i < |tasks| && Writes(tasks[i], dryRun)
                                   && w == Pair(tasks[i].path, tasks[i].fixed.value.text)
  {
    if |tasks| > 0 {
      var n := |tasks|;
      var init := tasks[..n - 1];
      WrittenFiles(init, dryRun);
      assert forall i :: 0 <= i < n - 1 ==> init[i] == tasks[i];
      forall w | exists i :: 0 <= i < n && Writes(tasks[i], dryRun) && w == Pair(tasks[i].path, tasks[i].fixed.value.text)
        ensures w in Run(tasks, dryRun).written
      {
        var i :| 0 <= i < n && Writes(tasks[i], dryRun) && w == Pair(tasks[i].path, tasks[i].fixed.value.text);
        if i < n - 1 {
          assert Writes(init[i], dryRun) && w == Pair(init[i].path, init[i].fixed.value.text);
        }
      }
    }
  }

  /** A dry run writes nothing. */
  lemma {:induction false} DryRunWritesNothing(tasks: seq<FileTask>)
    ensures Run(tasks, true).written == []
  {
    if |tasks| > 0 {
      DryRunWritesNothing(tasks[..|tasks| - 1]);
    }
  }

  /** A file none of whose import declarations has a default import or a resolved named
      import is reported as untouched and never written back, unless one of its module
      paths is named after an inherited method: then the rewrite throws and the file is
      reported as failed. */
  lemma UntouchedFile(path: string, file: SourceFile, saveThrows: bool, dryRun: bool, eol: string)
    requires WellFormed(ImportsOf(file.items))
    requires forall j :: 0 <= j < |ImportsOf(file.items)| ==> !Contributes(ImportsOf(file.items)[j])
    ensures RunFile(FileTask(path, Attempt(file, false, eol), saveThrows), dryRun)
            == Outcome([if HasPrototypePath(file) then Failed(path) else Untouched(path)], [], [])
  {
    if !HasPrototypePath(file) {
      NoLinesForUntouchedFile(file, eol);
    }
  }

  /** The rewrite synthesises no line for a file with nothing to classify. */
  lemma NoLinesForUntouchedFile(file: SourceFile, eol: string)
    requires WellFormed(ImportsOf(file.items))
    requires forall j :: 0 <= j < |ImportsOf(file.items)| ==> !Contributes(ImportsOf(file.items)[j])
    ensures Fix(file, eol).rewrittenImports == []
  {
    NoLinesIffNoContribution(file, eol);
  }

  /** A file importing from a path named after an inherited method is reported as failed,
      whatever else it holds: it is neither previewed, written back nor remembered for the
      directives notice. */
  lemma PrototypePathFailsFile(path: string, file: SourceFile, hostThrows: bool, saveThrows: bool, dryRun: bool, eol: string)
    requires HasPrototypePath(file)
    ensures RunFile(FileTask(path, Attempt(file, hostThrows, eol), saveThrows), dryRun) == Outcome([Failed(path)], [], [])
  {
  }
}

=== FILE: classify.dfy ===
/**
 * Classification of named imports: every definition a specifier resolves to is put in
 * exactly one of two buckets, type-level or value-level, by its kind alone.
 */
module Classify {
  import opened Wrappers
  import opened Syntax

  datatype Bucket = TypeBucket | CodeBucket

  /** The single discriminating rule: only the kinds "type" and "interface" are type-level. */
  function BucketOf(d: Definition): Bucket
  {
    if d.kind in ["type", "interface"] then TypeBucket else CodeBucket
  }

  /** An alias counts only when its text is non-empty (JavaScript truthiness). */
  predicate HasAlias(alias: Option<string>)
  {
    alias.Some? && alias.value != ""
  }

  /** The text an entry is emitted as: the definition's own name, followed by
      ` as <alias>` when the specifier is aliased. */
  function DisplayName(definitionName: string, alias: Option<string>): (r: string)
    ensures |definitionName| <= |r| && r[..|definitionName|] == definitionName
    ensures HasAlias(alias) <==> |r| > |definitionName|
    ensures HasAlias(alias) ==> r[|definitionName|..] == " as " + alias.value
  {
    if HasAlias(alias) then definitionName + " as " + alias.value else definitionName
  }

  /** Display names of those `defs` that fall in bucket `b`, in resolution order. */
  function DefNames(defs: seq<Definition>, alias: Option<string>, b: Bucket): (names: seq<string>)
    ensures |names| <= |defs|
  {
    if |defs| == 0 then []
    else
      var last := defs[|defs| - 1];
      DefNames(defs[..|defs| - 1], alias, b)
      + (if BucketOf(last) == b then [DisplayName(last.name, alias)] else [])
  }

  /** Display names of all `defs`, in resolution order. */
  function AllNames(defs: seq<Definition>, alias: Option<string>): (names: seq<string>)
  {
    if |defs| == 0 then []
    else AllNames(defs[..|defs| - 1], alias) + [DisplayName(defs[|defs| - 1].name, alias)]
  }

  /** Entries of bucket `b` contributed by a list of specifiers, in scan order. */
  function SpecNames(specs: seq<Specifier>, b: Bucket): seq<string>
  {
    if |specs| == 0 then []
    else
      var last := specs[|specs| - 1];
      SpecNames(specs[..|specs| - 1], b) + DefNames(last.definitions, last.alias, b)
  }

  /** Entries of bucket `b` contributed by one import declaration. */
  function DeclNames(d: ImportDecl, b: Bucket): seq<string>
  {
    SpecNames(d.specifiers, b)
  }

  /** Number of definitions the specifiers resolve to, all together. */
  function DefinitionCount(specs: seq<Specifier>): nat
  {
    if |specs| == 0 then 0
    else DefinitionCount(specs[..|specs| - 1]) + |specs[|specs| - 1].definitions|
  }

  /** A name lands in the type bucket iff it is the display name of a definition of
      kind exactly "type" or "interface", and in the value bucket iff it is the display
      name of a definition of any other kind. */
  lemma DefNamesMembership(defs: seq<Definition>, alias: Option<string>, x: string)
    ensures x in DefNames(defs, alias, TypeBucket) <==>
      exists i :: 0 <= i < |defs| && (defs[i].kind == "type" || defs[i].kind == "interface")
                  && DisplayName(defs[i].name, alias) == x
    ensures x in DefNames(defs, alias, CodeBucket) <==>
      exists i :: 0 <= i < |defs| && defs[i].kind != "type" && defs[i].kind != "interface"
                  && DisplayName(defs[i].name, alias) == x
  {
    DefNamesBucket(defs, alias, TypeBucket, x);
    DefNamesBucket(defs, alias, CodeBucket, x);
    assert forall d :: BucketOf(d) == TypeBucket <==> d.kind == "type" || d.kind == "interface";
  }

  /** A name lands in bucket `b` iff it is the display name of a definition of that
      bucket. */
  lemma {:induction false} DefNamesBucket(defs: seq<Definition>, alias: Option<string>, b: Bucket, x: string)
    ensures x in DefNames(defs, alias, b) <==>
      exists i :: 0 <= i < |defs| && BucketOf(defs[i]) == b && DisplayName(defs[i].name, alias) == x
  {
    if |defs| > 0 {
      var init := defs[..|defs| - 1];
      DefNamesBucket(init, alias, b, x);
      assert forall i :: 0 <= i < |init| ==> init[i] == defs[i];
    }
  }

  /** Each definition contributes exactly one entry: the two buckets together hold the
      display names of all definitions, each once. */
  lemma {:induction false} DefNamesPartition(defs: seq<Definition>, alias: Option<string>)
    ensures |DefNames(defs, alias, TypeBucket)| + |DefNames(defs, alias, CodeBucket)| == |defs|
    ensures multiset(DefNames(defs, alias, TypeBucket)) + multiset(DefNames(defs, alias, CodeBucket))
            == multiset(AllNames(defs, alias))
  {
    if |defs| > 0 {
      DefNamesPartition(defs[..|defs| - 1], alias);
    }
  }

  /** Over a whole list of specifiers, the two buckets together receive one entry per
      resolved definition. */
  lemma {:induction false} SpecNamesCount(specs: seq<Specifier>)
    ensures |SpecNames(specs, TypeBucket)| + |SpecNames(specs, CodeBucket)| == DefinitionCount(specs)
  {
    if |specs| > 0 {
      var last := specs[|specs| - 1];
      SpecNamesCount(specs[..|specs| - 1]);
      DefNamesPartition(last.definitions, last.alias);
    }
  }

  /** The imperative classification loop of `fixSourceFile` for one declaration: for every
      specifier, classify each of its definitions, and note that something was
      classified. */
  method ClassifyInto(specs: seq<Specifier>, codeImports: seq<string>, typeImports: seq<string>)
    returns (code: seq<string>, types: seq<string>, classified: bool)
    ensures code == codeImports + SpecNames(specs, CodeBucket)
    ensures types == typeImports + SpecNames(specs, TypeBucket)
    ensures classified <==> DefinitionCount(specs) > 0
  {
    code, types, classified := codeImports, typeImports, false;
    var i := 0;
    while i < |specs|
      invariant 0 <= i <= |specs|
      invariant code == codeImports + SpecNames(specs[..i], CodeBucket)
      invariant types == typeImports + SpecNames(specs[..i], TypeBucket)
      invariant classified <==> DefinitionCount(specs[..i]) > 0
    {
      var spec := specs[i];
      var touched;
      code, types, touched := ClassifySpecifier(spec.definitions, spec.alias, code, types);
      classified := classified || touched;
      assert specs[..i + 1][..i] == specs[..i];
      assert specs[..i + 1][i] == spec;
      assert code == codeImports + SpecNames(specs[..i + 1], CodeBucket) by {
        assert code == codeImports + SpecNames(specs[..i], CodeBucket) + DefNames(spec.definitions, spec.alias, CodeBucket);
      }
      assert types == typeImports + SpecNames(specs[..i + 1], TypeBucket) by {
        assert types == typeImports + SpecNames(specs[..i], TypeBucket) + DefNames(spec.definitions, spec.alias, TypeBucket);
      }
      i := i + 1;
    }
    assert specs[..i] == specs;
  }

  /** The inner loop: each definition of one specifier pushed onto the list of its
      bucket, as its display name. */
  method ClassifySpecifier(defs: seq<Definition>, alias: Option<string>, codeImports: seq<string>, typeImports: seq<string>)
    returns (code: seq<string>, types: seq<string>, touched: bool)
    ensures code == codeImports + DefNames(defs, alias, CodeBucket)
    ensures types == typeImports + DefNames(defs, alias, TypeBucket)
    ensures touched <==> |defs| > 0
  {
    code, types, touched := codeImports, typeImports, false;
    var j := 0;
    while j < |defs|
      invariant 0 <= j <= |defs|
      invariant code == codeImports + DefNames(defs[..j], alias, CodeBucket)
      invariant types == typeImports + DefNames(defs[..j], alias, TypeBucket)
      invariant touched <==> j > 0
    {
      var definition := defs[j];
      var finalName := DisplayName(definition.name, alias);
      assert defs[..j + 1][..j] == defs[..j];
      assert defs[..j + 1][j] == definition;
      if definition.kind in ["type", "interface"] {
        touched := true;
        types := types + [finalName];
        assert types == typeImports + (DefNames(defs[..j], alias, TypeBucket) + [finalName]);
      } else {
        touched := true;
        code := code + [finalName];
        assert code == codeImports + (DefNames(defs[..j], alias, CodeBucket) + [finalName]);
      }
      j := j + 1;
    }
    assert defs[..j] == defs;
  }
}

=== FILE: prototype_keys.dfy ===
/**
 * `fixSourceFile` as written, with the records kept in a plain object literal.
 * Looking up a module path that is not yet an own key falls through to the object's
 * prototype: when the path names one of the methods every object inherits, the lookup
 * yields that function instead of `undefined`, the get-or-create keeps it as the module's
 * "record", and the first access to one of its arrays throws.
 */
module PrototypeKeys {
  import opened Wrappers
  import opened Syntax
  import opened Classify
  import opened AssocList
  import opened Scan
  import opened Synthesis
  import opened Rewrite

  /** The function-valued properties a plain object inherits from `Object.prototype`. */
  const PrototypeMethods: set<string> := {
    "constructor", "toString", "toLocaleString", "valueOf", "hasOwnProperty",
    "isPrototypeOf", "propertyIsEnumerable",
    "__defineGetter__", "__defineSetter__", "__lookupGetter__", "__lookupSetter__"
  }

  /** Some import declaration of the file imports from a path named after an inherited
      method. */
  predicate HasPrototypePath(f: SourceFile)
  {
    exists j :: 0 <= j < |ImportsOf(f.items)| && ImportsOf(f.items)[j].modulePath in PrototypeMethods
  }

  /** What the object holds under a module path: a record of the rewrite's own, or an
      inherited method, which has no `codeImports` or `typeImports` arrays. */
  datatype Slot = Own(rec: ModuleImports) | Inherited

  type Slots = seq<Pair<string, Slot>>

  /** `imports[modulePath] || { ... }`: an own key's value, else the inherited method of
      that name, else a fresh empty record. */
  function Lookup(m: Slots, path: string): (s: Slot)
    ensures Get(m, path).Some? ==> s == Get(m, path).value
    ensures Get(m, path).None? ==> (s.Inherited? <==> path in PrototypeMethods)
  {
    match Get(m, path)
    case Some(s) => s
    case None => if path in PrototypeMethods then Inherited else Own(NoImports)
  }

  /** The scan as written: it either throws or yields the object's entries, the flag and
      the removal decisions. */
  datatype RawScan = Threw | Scanned(slots: Slots, hasChanged: bool, removed: seq<bool>)

  /** One declaration. On an inherited method the default import is assigned as a
      property of the function, which succeeds, while the first resolved definition
      pushes onto a missing array and throws. */
  function RawStep(s: RawScan, d: ImportDecl): RawScan
  {
    match s
    case Threw => Threw
    case Scanned(slots, hasChanged, removed) =>
      match Lookup(slots, d.modulePath)
      case Inherited =>
        if DefinitionCount(d.specifiers) > 0 then Threw
        else
          var changed := hasChanged || d.defaultImport.Some?;
          Scanned(Put(slots, d.modulePath, Inherited), changed, removed + [changed])
      case Own(rec) =>
        var changed := hasChanged || Contributes(d);
        Scanned(Put(slots, d.modulePath, Own(Merge(rec, d))), changed, removed + [changed])
  }

  function RawScanAll(decls: seq<ImportDecl>): (s: RawScan)
    ensures s.Scanned? ==> |s.removed| == |decls|
  {
    if |decls| == 0 then Scanned([], false, [])
    else RawStep(RawScanAll(decls[..|decls| - 1]), decls[|decls| - 1])
  }

  /** The synthesis as written: destructuring an inherited method yields `undefined` for
      all three fields, and the decision table reads `codeImports.length`, which throws. */
  function RawLines(slots: Slots): Option<seq<string>>
  {
    if |slots| == 0 then Some([])
    else
      var last := slots[|slots| - 1];
      match RawLines(slots[..|slots| - 1])
      case None => None
      case Some(lines) =>
        match last.value
        case Inherited => None
        case Own(rec) => Some(lines + ModuleLines(last.key, rec))
  }

  /** The rewrite of one file as written: `None` when it throws. */
  function FixAsWritten(f: SourceFile, eol: string): Option<FixResult>
  {
    match RawScanAll(ImportsOf(f.items))
    case Threw => None
    case Scanned(slots, _, removed) =>
      match RawLines(slots)
      case None => None
      case Some(lines) =>
        Some(FixResult(lines, DirectiveLines(f), removed, InsertedText(lines, eol) + Remaining(f.items, removed)))
  }

  // ---------------------------------------------------------------------------------
  // Relating the rewrite as written to the corrected one.
  // ---------------------------------------------------------------------------------

  /** The records of the corrected scan, as entries of the object. */
  function Lift(m: Records): (r: Slots)
    ensures |r| == |m|
    ensures forall i :: 0 <= i < |m| ==> r[i] == Pair(m[i].key, Own(m[i].value))
  {
    if |m| == 0 then [] else [Pair(m[0].key, Own(m[0].value))] + Lift(m[1..])
  }

  lemma {:induction false} LiftGet(m: Records, k: string)
    ensures Get(Lift(m), k) == if Get(m, k).Some? then Some(Own(Get(m, k).value)) else None
  {
    if |m| > 0 {
      LiftGet(m[1..], k);
    }
  }

  lemma {:induction false} LiftPut(m: Records, k: string, v: ModuleImports)
    ensures Put(Lift(m), k, Own(v)) == Lift(Put(m, k, v))
  {
    if |m| > 0 && m[0].key != k {
      LiftPut(m[1..], k, v);
      var tail := Put(m[1..], k, v);
      assert Put(m, k, v) == [m[0]] + tail;
      assert ([m[0]] + tail)[1..] == tail;
    } else if |m| > 0 {
      assert Put(m, k, v) == [Pair(k, v)] + m[1..];
      assert ([Pair(k, v)] + m[1..])[1..] == m[1..];
    }
  }

  /** Without a module path named after an inherited method, the scan as written keeps an
      own record for every path and agrees with the corrected scan. */
  lemma {:induction false} RawScanAgrees(decls: seq<ImportDecl>)
    requires forall j :: 0 <= j < |decls| ==> decls[j].modulePath !in PrototypeMethods
    ensures RawScanAll(decls) == Scanned(Lift(ScanAll(decls).imports), ScanAll(decls).hasChanged, ScanAll(decls).removed)
  {
    if |decls| > 0 {
      var n := |decls|;
      var init := decls[..n - 1];
      var d := decls[n - 1];
      RawScanAgrees(init);
      var s := ScanAll(init);
      LiftGet(s.imports, d.modulePath);
      assert Lookup(Lift(s.imports), d.modulePath) == Own(RecordFor(s.imports, d.modulePath));
      LiftPut(s.imports, d.modulePath, Merge(RecordFor(s.imports, d.modulePath), d));
    }
  }

  /** The synthesis as written agrees with the corrected one on own records. */
  lemma {:induction false} RawLinesAgree(m: Records)
    ensures RawLines(Lift(m)) == Some(AllLines(m))
  {
    if |m| > 0 {
      var n := |m|;
      assert Lift(m)[..n - 1] == Lift(m[..n - 1]);
      RawLinesAgree(m[..n - 1]);
    }
  }

  /** Once a module path named after an inherited method has been seen, the object holds
      that method under the path; before, it holds nothing under it. */
  lemma {:induction false} InheritedSticks(decls: seq<ImportDecl>, p: string)
    requires p in PrototypeMethods
    requires RawScanAll(decls).Scanned?
    ensures Get(RawScanAll(decls).slots, p) == if p in FirstSeen(decls) then Some(Inherited) else None
  {
    if |decls| > 0 {
      var n := |decls|;
      var init := decls[..n - 1];
      var d := decls[n - 1];
      var before := RawScanAll(init);
      assert before.Scanned?;
      InheritedSticks(init, p);
      assert p in FirstSeen(decls) <==> p in FirstSeen(init) || d.modulePath == p;
      if d.modulePath == p {
        assert Lookup(before.slots, p) == Inherited;
        assert RawScanAll(decls).slots == Put(before.slots, p, Inherited);
      } else {
        var slot := if Lookup(before.slots, d.modulePath).Inherited? then Inherited
                    else Own(Merge(Lookup(before.slots, d.modulePath).rec, d));
        assert RawScanAll(decls).slots == Put(before.slots, d.modulePath, slot);
        PutOther(before.slots, d.modulePath, slot, p);
      }
    }
  }

  /** The synthesis as written throws as soon as one entry is an inherited method. */
  lemma {:induction false} RawLinesThrow(slots: Slots, i: nat)
    requires i < |slots| && slots[i].value.Inherited?
    ensures RawLines(slots).None?
  {
    var n := |slots|;
    if i < n - 1 {
      assert slots[..n - 1][i] == slots[i];
      RawLinesThrow(slots[..n - 1], i);
    }
  }

  /** A file with a module path named after an inherited method throws. */
  lemma ThrowsOnPrototypePath(f: SourceFile, eol: string, j: nat)
    requires j < |ImportsOf(f.items)| && ImportsOf(f.items)[j].modulePath in PrototypeMethods
    ensures FixAsWritten(f, eol).None?
  {
    var decls := ImportsOf(f.items);
    var p := decls[j].modulePath;
    var raw := RawScanAll(decls);
    if raw.Scanned? {
      FirstSeenCharacterised(decls);
      InheritedSticks(decls, p);
      GetFound(raw.slots, p);
      assert Pair(p, Inherited) in raw.slots;
      var i :| 0 <= i < |raw.slots| && raw.slots[i] == Pair(p, Inherited);
      RawLinesThrow(raw.slots, i);
    }
  }

  /** A file without such a module path is rewritten exactly as the corrected rewrite
      does it. */
  lemma AgreesOffPrototypePaths(f: SourceFile, eol: string)
    requires forall j :: 0 <= j < |ImportsOf(f.items)| ==> ImportsOf(f.items)[j].modulePath !in PrototypeMethods
    ensures FixAsWritten(f, eol) == Some(Fix(f, eol))
  {
    var decls := ImportsOf(f.items);
    RawScanAgrees(decls);
    RawLinesAgree(ScanAll(decls).imports);
    FixUnfolded(f, eol);
  }

  /** The rewrite as written throws iff some module path of the file is named after an
      inherited method; otherwise it yields exactly what the corrected rewrite yields. */
  lemma FixAsWrittenCharacterised(f: SourceFile, eol: string)
    ensures FixAsWritten(f, eol).None?
            <==> exists j :: 0 <= j < |ImportsOf(f.items)| && ImportsOf(f.items)[j].modulePath in PrototypeMethods
    ensures FixAsWritten(f, eol).Some? ==> FixAsWritten(f, eol).value == Fix(f, eol)
    ensures FixAsWritten(f, eol).None? <==> HasPrototypePath(f)
  {
    var decls := ImportsOf(f.items);
    if exists j :: 0 <= j < |decls| && decls[j].modulePath in PrototypeMethods {
      var j :| 0 <= j < |decls| && decls[j].modulePath in PrototypeMethods;
      ThrowsOnPrototypePath(f, eol, j);
    } else {
      AgreesOffPrototypePaths(f, eol);
    }
  }

  /** The corrected rewrite, field by field. */
  lemma FixUnfolded(f: SourceFile, eol: string)
    ensures var s := ScanAll(ImportsOf(f.items));
            var lines := AllLines(s.imports);
            Fix(f, eol) == FixResult(lines, DirectiveLines(f), s.removed, InsertedText(lines, eol) + Remaining(f.items, s.removed))
  {
  }
}

=== FILE: rewrite.dfy ===
/**
 * The rewrite of one source file: scan the import declarations, synthesise the
 * replacement lines, drop the removed declarations and insert the new block at offset 0.
 */
module Rewrite {
  import opened Wrappers
  import opened Syntax
  import opened Classify
  import opened AssocList
  import opened Scan
  import opened Synthesis

  /** What the rewrite of one file yields: the synthesised lines, the triple-slash
      directives found, one removal decision per import declaration, and the new text. */
  datatype FixResult = FixResult(
    rewrittenImports: seq<string>,
    rewrittenDirectives: seq<string>,
    removed: seq<bool>,
    text: string)

  /** The file's reference directives, re-rendered: path references, then type
      references, then lib references. They only feed a warning. */
  function DirectiveLines(f: SourceFile): (r: seq<string>)
    ensures |r| == |f.pathReferences| + |f.typeReferences| + |f.libReferences|
  {
    seq(|f.pathReferences|, i requires 0 <= i < |f.pathReferences| => "/// <reference path=\"" + f.pathReferences[i] + "\" />")
    + seq(|f.typeReferences|, i requires 0 <= i < |f.typeReferences| => "/// <reference type=\"" + f.typeReferences[i] + "\" />")
    + seq(|f.libReferences|, i requires 0 <= i < |f.libReferences| => "/// <reference lib=\"" + f.libReferences[i] + "\" />")
  }

  /** The block inserted at offset 0: the lines joined by the line terminator, then two
      more line terminators, even when there are no lines. */
  function InsertedText(lines: seq<string>, eol: string): (t: string)
    ensures lines == [] ==> t == eol + eol
  {
    Join(lines, eol) + eol + eol
  }

  /** The file text left once the removed declarations are gone. */
  function Remaining(items: seq<Item>, removed: seq<bool>): string
    requires |removed| == |ImportsOf(items)|
  {
    if |items| == 0 then ""
    else
      match items[0]
      case CodeItem(c) => c + Remaining(items[1..], removed)
      case ImportItem(d) => (if removed[0] then "" else d.text) + Remaining(items[1..], removed[1..])
  }

  /** The text of everything but the import declarations. */
  function CodeText(items: seq<Item>): string
  {
    if |items| == 0 then ""
    else (if items[0].CodeItem? then items[0].code else "") + CodeText(items[1..])
  }

  /** The rewrite of one file. */
  function Fix(f: SourceFile, eol: string): (r: FixResult)
    ensures |r.removed| == |ImportsOf(f.items)|
  {
    var decls := ImportsOf(f.items);
    var s := ScanAll(decls);
    var lines := AllLines(s.imports);
    FixResult(lines, DirectiveLines(f), s.removed, InsertedText(lines, eol) + Remaining(f.items, s.removed))
  }

  // ---------------------------------------------------------------------------------
  // Reference definitions.
  // ---------------------------------------------------------------------------------

  /** The lines of the given module paths, each from the record it should end up with. */
  function ExpectedLines(decls: seq<ImportDecl>, paths: seq<string>): seq<string>
  {
    if |paths| == 0 then []
    else ExpectedLines(decls, paths[..|paths| - 1]) + ModuleLines(paths[|paths| - 1], Expected(decls, paths[|paths| - 1]))
  }

  /** Every default import has some text: the host never reports an empty identifier. */
  predicate WellFormed(decls: seq<ImportDecl>)
  {
    forall j :: 0 <= j < |decls| && decls[j].defaultImport.Some? ==> decls[j].defaultImport.value != ""
  }

  // ---------------------------------------------------------------------------------
  // Properties of the rewrite.
  // ---------------------------------------------------------------------------------

  lemma {:induction false} AllLinesOfExpected(records: Records, decls: seq<ImportDecl>)
    requires forall i :: 0 <= i < |records| ==> records[i].value == Expected(decls, records[i].key)
    ensures AllLines(records) == ExpectedLines(decls, Keys(records))
  {
    if |records| > 0 {
      var init := records[..|records| - 1];
      assert forall i :: 0 <= i < |init| ==> init[i] == records[i];
      AllLinesOfExpected(init, decls);
      assert Keys(records)[..|records| - 1] == Keys(init);
    }
  }

  /** The synthesised lines are, module by module in first-seen order, the lines of the
      merged record of every declaration from that module. */
  lemma FixLines(f: SourceFile, eol: string)
    ensures Fix(f, eol).rewrittenImports == ExpectedLines(ImportsOf(f.items), FirstSeen(ImportsOf(f.items)))
  {
    var decls := ImportsOf(f.items);
    var records := ScanAll(decls).imports;
    ScanKeys(decls);
    forall i | 0 <= i < |records|
      ensures records[i].value == Expected(decls, records[i].key)
    {
      GetStored(records, i);
      ScanRecord(decls, records[i].key);
    }
    AllLinesOfExpected(records, decls);
  }

  /** At most two lines per module path of the file. */
  lemma FixLineBound(f: SourceFile, eol: string)
    ensures |Fix(f, eol).rewrittenImports| <= 2 * |FirstSeen(ImportsOf(f.items))|
  {
    var decls := ImportsOf(f.items);
    ScanKeys(decls);
    AllLinesBound(ScanAll(decls).imports);
  }

  /** With well-formed default imports, a module's record ends up empty iff no declaration
      from that module has a default import or a resolved named import. */
  lemma {:induction false} ExpectedEmpty(decls: seq<ImportDecl>, path: string)
    requires WellFormed(decls)
    ensures Expected(decls, path) == NoImports <==>
      forall j :: 0 <= j < |decls| && decls[j].modulePath == path ==> !Contributes(decls[j])
  {
    if |decls| > 0 {
      var n := |decls|;
      var init := decls[..n - 1];
      var last := decls[n - 1];
      assert forall j :: 0 <= j < n - 1 ==> init[j] == decls[j];
      ExpectedEmpty(init, path);
      SpecNamesCount(last.specifiers);
    }
  }

  /** If every record is empty, no declaration contributes. */
  lemma EmptyRecordsNoContribution(decls: seq<ImportDecl>, j: nat)
    requires WellFormed(decls) && j < |decls|
    requires forall i :: 0 <= i < |ScanAll(decls).imports| ==> ScanAll(decls).imports[i].value == NoImports
    ensures !Contributes(decls[j])
  {
    var records := ScanAll(decls).imports;
    var p := decls[j].modulePath;
    ScanKeys(decls);
    FirstSeenCharacterised(decls);
    assert p in Keys(records);
    var i :| 0 <= i < |records| && Keys(records)[i] == p;
    GetStored(records, i);
    ScanRecord(decls, p);
    ExpectedEmpty(decls, p);
  }

  /** If no declaration contributes, every record is empty. */
  lemma NoContributionEmptyRecord(decls: seq<ImportDecl>, i: nat)
    requires WellFormed(decls) && i < |ScanAll(decls).imports|
    requires forall j :: 0 <= j < |decls| ==> !Contributes(decls[j])
    ensures ScanAll(decls).imports[i].value == NoImports
  {
    var records := ScanAll(decls).imports;
    ScanKeys(decls);
    GetStored(records, i);
    ScanRecord(decls, records[i].key);
    ExpectedEmpty(decls, records[i].key);
  }

  /** With well-formed default imports, every record ends up empty iff no declaration
      has a default import or a resolved named import. */
  lemma RecordsEmptyIffNoContribution(decls: seq<ImportDecl>)
    requires WellFormed(decls)
    ensures (forall i :: 0 <= i < |ScanAll(decls).imports| ==> ScanAll(decls).imports[i].value == NoImports)
        <==> (forall j :: 0 <= j < |decls| ==> !Contributes(decls[j]))
  {
    var records := ScanAll(decls).imports;
    if forall i :: 0 <= i < |records| ==> records[i].value == NoImports {
      forall j | 0 <= j < |decls|
        ensures !Contributes(decls[j])
      {
        EmptyRecordsNoContribution(decls, j);
      }
    }
    if forall j :: 0 <= j < |decls| ==> !Contributes(decls[j]) {
      forall i | 0 <= i < |records|
        ensures records[i].value == NoImports
      {
        NoContributionEmptyRecord(decls, i);
      }
    }
  }

  /** With well-formed default imports, no line is synthesised for a file iff none of its
      declarations has a default import or a resolved named import. */
  lemma NoLinesIffNoContribution(f: SourceFile, eol: string)
    requires WellFormed(ImportsOf(f.items))
    ensures Fix(f, eol).rewrittenImports == [] <==>
      forall j :: 0 <= j < |ImportsOf(f.items)| ==> !Contributes(ImportsOf(f.items)[j])
  {
    FixImports(f, eol);
    LinesEmptyIffNoContribution(ImportsOf(f.items));
  }

  /** The synthesised lines are those of the scan's records. */
  lemma FixImports(f: SourceFile, eol: string)
    ensures Fix(f, eol).rewrittenImports == AllLines(ScanAll(ImportsOf(f.items)).imports)
  {
  }

  /** The scan's records render to no line iff no declaration contributes. */
  lemma LinesEmptyIffNoContribution(decls: seq<ImportDecl>)
    requires WellFormed(decls)
    ensures AllLines(ScanAll(decls).imports) == [] <==> forall j :: 0 <= j < |decls| ==> !Contributes(decls[j])
  {
    AllLinesEmpty(ScanAll(decls).imports);
    RecordsEmptyIffNoContribution(decls);
  }

  /** No declaration is removed iff none has a default import or a resolved named import. */
  lemma NothingRemovedIffNoContribution(decls: seq<ImportDecl>)
    ensures (forall i :: 0 <= i < |decls| ==> !ScanAll(decls).removed[i])
        <==> (forall j :: 0 <= j < |decls| ==> !Contributes(decls[j]))
  {
    ScanRemoved(decls);
    var k := FirstChange(decls);
    if k < |decls| {
      assert ScanAll(decls).removed[k] && Contributes(decls[k]);
    }
  }

  /** With well-formed default imports, no line is synthesised iff no declaration is
      removed: the file is left alone exactly when nothing in it was classified. */
  lemma UnchangedIffNothingRemoved(f: SourceFile, eol: string)
    requires WellFormed(ImportsOf(f.items))
    ensures Fix(f, eol).rewrittenImports == [] <==>
      forall i :: 0 <= i < |Fix(f, eol).removed| ==> !Fix(f, eol).removed[i]
  {
    var decls := ImportsOf(f.items);
    FixImports(f, eol);
    FixRemoved(f, eol);
    LinesEmptyIffNoContribution(decls);
    NothingRemovedIffNoContribution(decls);
  }

  lemma FixRemoved(f: SourceFile, eol: string)
    ensures Fix(f, eol).removed == ScanAll(ImportsOf(f.items)).removed
  {
  }

  /** Nothing removed leaves the file text as it was. */
  lemma {:induction false} RemainingKeepsAll(items: seq<Item>, removed: seq<bool>)
    requires |removed| == |ImportsOf(items)|
    requires forall i :: 0 <= i < |removed| ==> !removed[i]
    ensures Remaining(items, removed) == TextOf(items)
  {
    if |items| > 0 {
      if items[0].ImportItem? {
        RemainingKeepsAll(items[1..], removed[1..]);
      } else {
        RemainingKeepsAll(items[1..], removed);
      }
    }
  }

  /** Everything removed leaves exactly the text that is not an import declaration. */
  lemma {:induction false} RemainingDropsAll(items: seq<Item>, removed: seq<bool>)
    requires |removed| == |ImportsOf(items)|
    requires forall i :: 0 <= i < |removed| ==> removed[i]
    ensures Remaining(items, removed) == CodeText(items)
  {
    if |items| > 0 {
      if items[0].ImportItem? {
        RemainingDropsAll(items[1..], removed[1..]);
      } else {
        RemainingDropsAll(items[1..], removed);
      }
    }
  }

  /** A file with nothing to rewrite still gets two line terminators prepended in memory;
      the rest of its text is untouched. */
  lemma UnchangedText(f: SourceFile, eol: string)
    requires WellFormed(ImportsOf(f.items))
    requires Fix(f, eol).rewrittenImports == []
    ensures Fix(f, eol).text == eol + eol + TextOf(f.items)
  {
    UnchangedIffNothingRemoved(f, eol);
    RemainingKeepsAll(f.items, Fix(f, eol).removed);
  }
}

=== FILE: scan.dfy ===
/**
 * The scan over a file's import declarations: a fold that merges every declaration into
 * one record per module path and decides, declaration by declaration, which are removed.
 */
module Scan {
  import opened Wrappers
  import opened Syntax
  import opened Classify
  import opened AssocList

  /** Records keyed by module path, in the order the paths were first seen. */
  type Records = seq<Pair<string, ModuleImports>>

  /** The state threaded through the scan: the records, the file-level changed flag, and
      one removal decision per declaration scanned so far. */
  datatype ScanState = ScanState(imports: Records, hasChanged: bool, removed: seq<bool>)

  /** Get-or-create: the record of `path`, or a fresh empty one. */
  function RecordFor(m: Records, path: string): ModuleImports
  {
    match Get(m, path)
    case Some(rec) => rec
    case None => NoImports
  }

  /** A declaration sets the changed flag when it has a default import or when any of its
      specifiers resolves to at least one definition, whatever the definition's kind. */
  predicate Contributes(d: ImportDecl)
  {
    d.defaultImport.Some? || DefinitionCount(d.specifiers) > 0
  }

  /** A declaration merged into its module's record: the default import overwritten when
      present, the classified entries appended. */
  function Merge(rec: ModuleImports, d: ImportDecl): ModuleImports
  {
    var withDefault := if d.defaultImport.Some? then rec.(defaultImport := d.defaultImport.value) else rec;
    withDefault.(codeImports := withDefault.codeImports + DeclNames(d, CodeBucket),
                 typeImports := withDefault.typeImports + DeclNames(d, TypeBucket))
  }

  /** One declaration: get-or-create its module's record, merge the declaration into it,
      raise the flag, and remove the declaration iff the flag is now up. The flag is never
      lowered again. */
  function Step(s: ScanState, d: ImportDecl): ScanState
  {
    var changed := s.hasChanged || Contributes(d);
    ScanState(Put(s.imports, d.modulePath, Merge(RecordFor(s.imports, d.modulePath), d)), changed, s.removed + [changed])
  }

  /** The scan of all declarations, in file order. */
  function ScanAll(decls: seq<ImportDecl>): (s: ScanState)
    ensures |s.removed| == |decls|
  {
    if |decls| == 0 then ScanState([], false, [])
    else Step(ScanAll(decls[..|decls| - 1]), decls[|decls| - 1])
  }

  /** The imperative loop of `fixSourceFile`: a loop over the declarations around the
      classification loop, mutating one record per module path. */
  method ScanDeclarations(decls: seq<ImportDecl>) returns (imports: Records, hasChanged: bool, removed: seq<bool>)
    ensures ScanState(imports, hasChanged, removed) == ScanAll(decls)
  {
    imports, hasChanged, removed := [], false, [];
    var i := 0;
    while i < |decls|
      invariant 0 <= i <= |decls|
      invariant ScanState(imports, hasChanged, removed) == ScanAll(decls[..i])
    {
      imports, hasChanged, removed := ScanOne(imports, hasChanged, removed, decls[i]);
      assert decls[..i + 1][..i] == decls[..i];
      i := i + 1;
    }
    assert decls[..i] == decls;
  }

  /** One iteration of the loop: fold declaration `d` into the running state. */
  method ScanOne(imports0: Records, hasChanged0: bool, removed0: seq<bool>, d: ImportDecl)
    returns (imports: Records, hasChanged: bool, removed: seq<bool>)
    ensures ScanState(imports, hasChanged, removed) == Step(ScanState(imports0, hasChanged0, removed0), d)
  {
    hasChanged := hasChanged0;
    var rec := RecordFor(imports0, d.modulePath);
    if d.defaultImport.Some? {
      rec := rec.(defaultImport := d.defaultImport.value);
      hasChanged := true;
    }
    var code, types, classified := ClassifyInto(d.specifiers, rec.codeImports, rec.typeImports);
    rec := rec.(codeImports := code, typeImports := types);
    imports := Put(imports0, d.modulePath, rec);
    hasChanged := hasChanged || classified;
    removed := removed0 + [hasChanged];
    assert rec == Merge(RecordFor(imports0, d.modulePath), d);
    assert hasChanged == (hasChanged0 || Contributes(d));
  }

  // ---------------------------------------------------------------------------------
  // Reference definitions: what the scan computes, stated per module path.
  // ---------------------------------------------------------------------------------

  /** The distinct module paths of `decls`, in order of first appearance. */
  function FirstSeen(decls: seq<ImportDecl>): seq<string>
  {
    if |decls| == 0 then []
    else
      var seen := FirstSeen(decls[..|decls| - 1]);
      var path := decls[|decls| - 1].modulePath;
      if path in seen then seen else seen + [path]
  }

  /** The entries of bucket `b` of every declaration importing from `path`, in scan order. */
  function NamesFor(decls: seq<ImportDecl>, path: string, b: Bucket): seq<string>
  {
    if |decls| == 0 then []
    else
      var last := decls[|decls| - 1];
      NamesFor(decls[..|decls| - 1], path, b) + (if last.modulePath == path then DeclNames(last, b) else [])
  }

  /** The text of the last default import from `path`, or "" when there is none. */
  function DefaultFor(decls: seq<ImportDecl>, path: string): string
  {
    if |decls| == 0 then ""
    else
      var last := decls[|decls| - 1];
      if last.modulePath == path && last.defaultImport.Some? then last.defaultImport.value
      else DefaultFor(decls[..|decls| - 1], path)
  }

  /** The number of definitions resolved by declarations importing from `path`. */
  function DefinitionsFor(decls: seq<ImportDecl>, path: string): nat
  {
    if |decls| == 0 then 0
    else
      var last := decls[|decls| - 1];
      DefinitionsFor(decls[..|decls| - 1], path) + (if last.modulePath == path then DefinitionCount(last.specifiers) else 0)
  }

  /** The record a module path should end up with. */
  function Expected(decls: seq<ImportDecl>, path: string): ModuleImports
  {
    ModuleImports(NamesFor(decls, path, CodeBucket), DefaultFor(decls, path), NamesFor(decls, path, TypeBucket))
  }

  // ---------------------------------------------------------------------------------
  // Properties of the scan.
  // ---------------------------------------------------------------------------------

  /** `FirstSeen` lists every module path of the file once, and a path is listed before
      another iff it occurs in the file before the other's first occurrence. */
  lemma FirstSeenCharacterised(decls: seq<ImportDecl>)
    ensures forall p :: p in FirstSeen(decls) <==> exists i :: 0 <= i < |decls| && decls[i].modulePath == p
    ensures forall a, b :: 0 <= a < b < |FirstSeen(decls)| ==> FirstSeen(decls)[a] != FirstSeen(decls)[b]
    ensures forall a, b, j :: 0 <= a < b < |FirstSeen(decls)| && 0 <= j < |decls| && decls[j].modulePath == FirstSeen(decls)[b]
              ==> exists i :: 0 <= i < j && decls[i].modulePath == FirstSeen(decls)[a]
  {
    FirstSeenMembers(decls);
    FirstSeenDistinct(decls);
    FirstSeenOrder(decls);
  }

  /** The last step of `FirstSeen`. */
  lemma FirstSeenLast(decls: seq<ImportDecl>)
    requires |decls| > 0
    ensures var seen := FirstSeen(decls[..|decls| - 1]);
            var p := decls[|decls| - 1].modulePath;
            FirstSeen(decls) == if p in seen then seen else seen + [p]
  {
  }

  lemma {:induction false} FirstSeenMembers(decls: seq<ImportDecl>)
    ensures forall p :: p in FirstSeen(decls) <==> exists i :: 0 <= i < |decls| && decls[i].modulePath == p
  {
    if |decls| > 0 {
      var n := |decls|;
      var init := decls[..n - 1];
      FirstSeenMembers(init);
      FirstSeenLast(decls);
      assert forall i :: 0 <= i < |init| ==> init[i] == decls[i];
      forall p | exists i :: 0 <= i < n && decls[i].modulePath == p
        ensures p in FirstSeen(decls)
      {
        var i :| 0 <= i < n && decls[i].modulePath == p;
        if i < n - 1 {
          assert init[i].modulePath == p;
        }
      }
    } else {
      assert FirstSeen(decls) == [];
    }
  }

  lemma {:induction false} FirstSeenDistinct(decls: seq<ImportDecl>)
    ensures forall a, b :: 0 <= a < b < |FirstSeen(decls)| ==> FirstSeen(decls)[a] != FirstSeen(decls)[b]
  {
    if |decls| > 0 {
      FirstSeenDistinct(decls[..|decls| - 1]);
      FirstSeenLast(decls);
    } else {
      assert FirstSeen(decls) == [];
    }
  }

  lemma FirstSeenOrder(decls: seq<ImportDecl>)
    ensures forall a, b, j :: 0 <= a < b < |FirstSeen(decls)| && 0 <= j < |decls| && decls[j].modulePath == FirstSeen(decls)[b]
              ==> exists i :: 0 <= i < j && decls[i].modulePath == FirstSeen(decls)[a]
  {
    var fs := FirstSeen(decls);
    forall a, b, j | 0 <= a < b < |fs| && 0 <= j < |decls| && decls[j].modulePath == fs[b]
      ensures exists i :: 0 <= i < j && decls[i].modulePath == fs[a]
    {
      FirstSeenOrderAt(decls, a, b, j);
      var i :| 0 <= i < j && decls[i].modulePath == fs[a];
      assert 0 <= i < j && decls[i].modulePath == fs[a];
    }
  }

  /** An occurrence of the path listed at `b` comes after an occurrence of the path listed
      at `a < b`. */
  lemma {:induction false} FirstSeenOrderAt(decls: seq<ImportDecl>, a: nat, b: nat, j: nat)
    requires a < b < |FirstSeen(decls)| && j < |decls| && decls[j].modulePath == FirstSeen(decls)[b]
    ensures exists i :: 0 <= i < j && decls[i].modulePath == FirstSeen(decls)[a]
  {
    var n := |decls|;
    var init := decls[..n - 1];
    FirstSeenLast(decls);
    FirstSeenMembers(init);
    var seen := FirstSeen(init);
    var fs := FirstSeen(decls);
    assert a < |seen| && fs[a] == seen[a];
    if j < n - 1 {
      assert decls[j] == init[j];
      assert init[j].modulePath in seen;
      assert b < |seen| && fs[b] == seen[b];
      FirstSeenOrderAt(init, a, b, j);
      var i :| 0 <= i < j && init[i].modulePath == seen[a];
      assert decls[i] == init[i];
    } else {
      assert seen[a] in seen;
      var i :| 0 <= i < |init| && init[i].modulePath == seen[a];
      assert decls[i] == init[i];
    }
  }

  /** Records are created on first encounter: the record keys are exactly the file's
      module paths in first-seen order, each once. */
  lemma {:induction false} ScanKeys(decls: seq<ImportDecl>)
    ensures Keys(ScanAll(decls).imports) == FirstSeen(decls)
    ensures DistinctKeys(ScanAll(decls).imports)
  {
    if |decls| > 0 {
      var init := decls[..|decls| - 1];
      var d := decls[|decls| - 1];
      ScanKeys(init);
      var s := ScanAll(init);
      PutDistinct(s.imports, d.modulePath, Merge(RecordFor(s.imports, d.modulePath), d));
    }
  }

  /** Every module path's record holds exactly the value entries and the type entries of
      all declarations from that path, in scan order, and the last default import. */
  lemma {:induction false} ScanRecord(decls: seq<ImportDecl>, path: string)
    ensures RecordFor(ScanAll(decls).imports, path) == Expected(decls, path)
  {
    if |decls| > 0 {
      var init := decls[..|decls| - 1];
      var d := decls[|decls| - 1];
      ScanRecord(init, path);
      var s := ScanAll(init);
      var merged := Merge(RecordFor(s.imports, d.modulePath), d);
      assert ScanAll(decls).imports == Put(s.imports, d.modulePath, merged);
      ExpectedStep(decls, path);
      if d.modulePath != path {
        PutOther(s.imports, d.modulePath, merged, path);
      } else {
        assert Get(ScanAll(decls).imports, path) == Some(merged);
      }
    }
  }

  /** The record a module path should end up with, one declaration further. */
  lemma ExpectedStep(decls: seq<ImportDecl>, path: string)
    requires |decls| > 0
    ensures var init := decls[..|decls| - 1];
            var d := decls[|decls| - 1];
            Expected(decls, path) == if d.modulePath == path then Merge(Expected(init, path), d) else Expected(init, path)
  {
    var init := decls[..|decls| - 1];
    var d := decls[|decls| - 1];
    if d.modulePath != path {
      assert NamesFor(decls, path, CodeBucket) == NamesFor(init, path, CodeBucket) + [];
      assert NamesFor(decls, path, TypeBucket) == NamesFor(init, path, TypeBucket) + [];
    }
  }

  /** The index of the first declaration that sets the changed flag, or the number of
      declarations when none does. */
  function FirstChange(decls: seq<ImportDecl>): (k: nat)
    ensures k <= |decls|
    ensures forall j :: 0 <= j < k ==> !Contributes(decls[j])
    ensures k < |decls| ==> Contributes(decls[k])
  {
    if |decls| == 0 then 0
    else
      var k := FirstChange(decls[..|decls| - 1]);
      if k < |decls| - 1 then k
      else if Contributes(decls[|decls| - 1]) then |decls| - 1
      else |decls|
  }

  /** Declaration `i` is removed iff it comes at or after the first declaration that sets
      the changed flag; the flag is up at the end iff some declaration set it. So the
      removed declarations are a suffix of the file's declarations, side-effect imports
      included. */
  lemma {:induction false} ScanRemoved(decls: seq<ImportDecl>)
    ensures |ScanAll(decls).removed| == |decls|
    ensures forall i :: 0 <= i < |decls| ==> (ScanAll(decls).removed[i] <==> FirstChange(decls) <= i)
    ensures ScanAll(decls).hasChanged <==> FirstChange(decls) < |decls|
  {
    if |decls| > 0 {
      var n := |decls|;
      var init := decls[..n - 1];
      ScanRemoved(init);
      var s := ScanAll(init);
      var changed := s.hasChanged || Contributes(decls[n - 1]);
      StepFlags(s, decls[n - 1]);
      var removed := ScanAll(decls).removed;
      assert removed == s.removed + [changed];
      forall i | 0 <= i < n
        ensures removed[i] <==> FirstChange(decls) <= i
      {
        if i < n - 1 {
          assert removed[i] == s.removed[i];
        }
      }
    }
  }

  /** The flags a single step leaves: the cumulative flag, appended as the newest
      removal decision. */
  lemma StepFlags(s: ScanState, d: ImportDecl)
    ensures Step(s, d).hasChanged == (s.hasChanged || Contributes(d))
    ensures Step(s, d).removed == s.removed + [s.hasChanged || Contributes(d)]
  {
  }

  /** Declaration `i` is removed iff some declaration at or before it has a default import
      or a resolved named import. */
  lemma RemovedIffEarlierChange(decls: seq<ImportDecl>, i: nat)
    requires i < |decls|
    ensures ScanAll(decls).removed[i] <==> exists j :: 0 <= j <= i && Contributes(decls[j])
  {
    ScanRemoved(decls);
    var removed := ScanAll(decls).removed;
    var k := FirstChange(decls);
    assert removed[i] <==> k <= i;
    if k <= i {
      assert Contributes(decls[k]);
    } else {
      assert forall j :: 0 <= j <= i ==> !Contributes(decls[j]);
    }
  }

  /** Once a declaration is removed, every later one is too, and the file's flag is up. */
  lemma RemovedMonotone(decls: seq<ImportDecl>, i: nat, j: nat)
    requires i <= j < |decls| && ScanAll(decls).removed[i]
    ensures ScanAll(decls).removed[j]
    ensures ScanAll(decls).hasChanged
  {
    ScanRemoved(decls);
  }

  /** Each definition scanned for a module contributes exactly one entry to its record. */
  lemma {:induction false} RecordEntryCount(decls: seq<ImportDecl>, path: string)
    ensures |Expected(decls, path).codeImports| + |Expected(decls, path).typeImports| == DefinitionsFor(decls, path)
  {
    if |decls| > 0 {
      RecordEntryCount(decls[..|decls| - 1], path);
      SpecNamesCount(decls[|decls| - 1].specifiers);
    }
  }

  /** A module path that does not occur in the file has no record. */
  lemma NoRecordForUnseenPath(decls: seq<ImportDecl>, path: string)
    requires forall i :: 0 <= i < |decls| ==> decls[i].modulePath != path
    ensures Get(ScanAll(decls).imports, path).None?
  {
    ScanKeys(decls);
    FirstSeenCharacterised(decls);
  }
}

=== FILE: scenarios.dfy ===
/**
 * Concrete files and what the rewrite makes of them.
 */
module Scenarios {
  import opened Wrappers
  import opened Syntax
  import opened Classify
  import opened AssocList
  import opened Scan
  import opened Synthesis
  import opened Rewrite
  import opened PrototypeKeys

  function Named(name: string, kind: string): Specifier
  {
    Specifier(name, None, [Definition(name, kind)])
  }

  function FileOf(decls: seq<ImportDecl>): SourceFile
  {
    SourceFile([], [], [], seq(|decls|, i requires 0 <= i < |decls| => ImportItem(decls[i])))
  }

  lemma ImportsOfFileOf(decls: seq<ImportDecl>)
    ensures ImportsOf(FileOf(decls).items) == decls
  {
    var items := FileOf(decls).items;
    if |decls| > 0 {
      assert items[1..] == FileOf(decls[1..]).items;
      ImportsOfFileOf(decls[1..]);
    }
  }

  lemma DefNamesOne(x: Definition, a: Option<string>, b: Bucket)
    ensures DefNames([x], a, b) == if BucketOf(x) == b then [DisplayName(x.name, a)] else []
  {
    assert [x][..0] == [];
  }

  lemma NamedNames(name: string, kind: string, b: Bucket)
    ensures DefNames(Named(name, kind).definitions, None, b)
            == if BucketOf(Definition(name, kind)) == b then [name] else []
  {
    DefNamesOne(Definition(name, kind), None, b);
  }

  lemma SpecNamesOne(s1: Specifier, b: Bucket)
    ensures SpecNames([s1], b) == DefNames(s1.definitions, s1.alias, b)
  {
    assert [s1][..0] == [];
  }

  lemma SpecNamesTwo(s1: Specifier, s2: Specifier, b: Bucket)
    ensures SpecNames([s1, s2], b) == DefNames(s1.definitions, s1.alias, b) + DefNames(s2.definitions, s2.alias, b)
  {
    SpecNamesOne(s1, b);
    assert [s1, s2][..1] == [s1];
  }

  /** How a two-declaration file's record for `path` is merged. */
  lemma ExpectedTwo(d1: ImportDecl, d2: ImportDecl, path: string)
    ensures Expected([d1, d2], path) == Expected([d1], path).(
      codeImports := Expected([d1], path).codeImports + (if d2.modulePath == path then DeclNames(d2, CodeBucket) else []),
      defaultImport := if d2.modulePath == path && d2.defaultImport.Some? then d2.defaultImport.value else Expected([d1], path).defaultImport,
      typeImports := Expected([d1], path).typeImports + (if d2.modulePath == path then DeclNames(d2, TypeBucket) else []))
  {
    assert [d1, d2][..1] == [d1];
  }

  /** The record of a one-declaration file. */
  lemma ExpectedOne(d: ImportDecl)
    ensures FirstSeen([d]) == [d.modulePath]
    ensures Expected([d], d.modulePath) == ModuleImports(
      DeclNames(d, CodeBucket),
      if d.defaultImport.Some? then d.defaultImport.value else "",
      DeclNames(d, TypeBucket))
    ensures FirstChange([d]) == if Contributes(d) then 0 else 1
  {
    assert [d][..0] == [];
    assert NamesFor([d], d.modulePath, CodeBucket) == [] + DeclNames(d, CodeBucket);
    assert NamesFor([d], d.modulePath, TypeBucket) == [] + DeclNames(d, TypeBucket);
    assert DefaultFor([d], d.modulePath) == if d.defaultImport.Some? then d.defaultImport.value else "";
    assert NamesFor([d], d.modulePath, CodeBucket) == DeclNames(d, CodeBucket);
  }

  /** The lines of a one-module file. */
  lemma LinesOne(decls: seq<ImportDecl>, path: string)
    ensures ExpectedLines(decls, [path]) == ModuleLines(path, Expected(decls, path))
  {
    assert [path][..0] == [];
  }

  /** The rewrite of a file with a single import declaration. */
  lemma FixSingle(f: SourceFile, d: ImportDecl, eol: string)
    requires ImportsOf(f.items) == [d]
    ensures Fix(f, eol).rewrittenImports == ModuleLines(d.modulePath, Expected([d], d.modulePath))
    ensures Fix(f, eol).removed == [Contributes(d)]
  {
    FixLines(f, eol);
    ExpectedOne(d);
    LinesOne([d], d.modulePath);
    ScanRemoved([d]);
  }

  /** The rewrite of a file with two import declarations from one module. */
  lemma FixPair(f: SourceFile, d1: ImportDecl, d2: ImportDecl, eol: string)
    requires ImportsOf(f.items) == [d1, d2] && d1.modulePath == d2.modulePath
    ensures Fix(f, eol).rewrittenImports == ModuleLines(d1.modulePath, Expected([d1, d2], d1.modulePath))
    ensures Fix(f, eol).removed == [Contributes(d1), Contributes(d1) || Contributes(d2)]
  {
    FixLines(f, eol);
    FirstSeenPair(d1, d2);
    LinesOne([d1, d2], d1.modulePath);
    RemovedPair(d1, d2);
  }

  /** Two declarations from one module yield one record key. */
  lemma FirstSeenPair(d1: ImportDecl, d2: ImportDecl)
    requires d1.modulePath == d2.modulePath
    ensures FirstSeen([d1, d2]) == [d1.modulePath]
  {
    assert [d1, d2][..1] == [d1];
    assert [d1][..0] == [];
    assert FirstSeen([d1]) == [d1.modulePath];
  }

  /** The removal decisions of a two-declaration file. */
  lemma RemovedPair(d1: ImportDecl, d2: ImportDecl)
    ensures ScanAll([d1, d2]).removed == [Contributes(d1), Contributes(d1) || Contributes(d2)]
  {
    assert [d1, d2][..1] == [d1];
    assert [d1][..0] == [];
    StepFlags(ScanAll([]), d1);
    StepFlags(ScanAll([d1]), d2);
  }

  // ---------------------------------------------------------------------------------
  // The scenarios.
  // ---------------------------------------------------------------------------------

  /** A default import and one value and one type entry come out as a default-plus-value
      line and a type line. */
  lemma DefaultValueTypeLines(dflt: string, v: string, t: string, path: string)
    requires dflt != ""
    ensures ModuleLines(path, ModuleImports([v], dflt, [t]))
            == ["import " + dflt + ", { " + v + " } from '" + path + "'",
                "import type { " + t + " } from '" + path + "'"]
  {
    var rec := ModuleImports([v], dflt, [t]);
    assert Plan(path, rec) == [DefaultAndCode(dflt, [v], path), TypeOnly([t], path)];
    assert Join([v], ", ") == v;
    assert Join([t], ", ") == t;
  }

  /** A record holding one type entry only comes out as a single type line. */
  lemma TypeOnlyLines(t: string, path: string)
    ensures ModuleLines(path, ModuleImports([], "", [t])) == ["import type { " + t + " } from '" + path + "'"]
  {
    assert Plan(path, ModuleImports([], "", [t])) == [TypeOnly([t], path)];
    assert Join([t], ", ") == t;
  }

  /** One value entry and one type entry, no default, come out as a value line and a type
      line. */
  lemma ValueAndTypeLines(v: string, t: string, path: string)
    ensures ModuleLines(path, ModuleImports([v], "", [t]))
            == ["import { " + v + " } from '" + path + "'",
                "import type { " + t + " } from '" + path + "'"]
  {
    var rec := ModuleImports([v], "", [t]);
    assert Plan(path, rec) == [CodeOnly([v], path), TypeOnly([t], path)];
    assert Join([v], ", ") == v;
    assert Join([t], ", ") == t;
  }

  /** The entries of a declaration whose specifiers each name one definition of their own
      name: `v` a function and `t` an interface. */
  lemma ValueTypeEntries(d: ImportDecl, v: string, vKind: string, t: string, tKind: string)
    requires d.specifiers == [Named(v, vKind), Named(t, tKind)]
    requires vKind !in ["type", "interface"] && tKind in ["type", "interface"]
    ensures DeclNames(d, CodeBucket) == [v] && DeclNames(d, TypeBucket) == [t]
    ensures DefinitionCount(d.specifiers) > 0
  {
    SpecNamesTwo(d.specifiers[0], d.specifiers[1], CodeBucket);
    SpecNamesTwo(d.specifiers[0], d.specifiers[1], TypeBucket);
    NamedNames(v, vKind, CodeBucket);
    NamedNames(v, vKind, TypeBucket);
    NamedNames(t, tKind, CodeBucket);
    NamedNames(t, tKind, TypeBucket);
    SpecNamesCount(d.specifiers);
  }

  /** The record of the single declaration `import D, { v, T } from 'p'`. */
  lemma MixedRecord(d: ImportDecl, dflt: string, v: string, t: string)
    requires d.defaultImport == Some(dflt)
    requires d.specifiers == [Named(v, "function"), Named(t, "interface")]
    ensures Expected([d], d.modulePath) == ModuleImports([v], dflt, [t])
    ensures Contributes(d)
  {
    ValueTypeEntries(d, v, "function", t, "interface");
    ExpectedOne(d);
  }

  /** `import D, { v, T } from 'p'`, with `v` resolving to a function and `T` to an
      interface, becomes a default-plus-value line and a separate type line. */
  lemma MixedDefaultValueType(text: string, dflt: string, v: string, t: string, path: string, eol: string)
    requires dflt != ""
    ensures
      var d := ImportDecl(text, Some(dflt), None, [Named(v, "function"), Named(t, "interface")], path);
      var r := Fix(FileOf([d]), eol);
      r.rewrittenImports == ["import " + dflt + ", { " + v + " } from '" + path + "'",
                             "import type { " + t + " } from '" + path + "'"]
      && r.removed == [true]
  {
    var d := ImportDecl(text, Some(dflt), None, [Named(v, "function"), Named(t, "interface")], path);
    ImportsOfFileOf([d]);
    FixSingle(FileOf([d]), d, eol);
    MixedRecord(d, dflt, v, t);
    DefaultValueTypeLines(dflt, v, t, path);
  }

  /** The record of the single declaration `import { T } from 'p'` with `T` an interface. */
  lemma PureTypeRecord(d: ImportDecl, t: string)
    requires d.defaultImport.None?
    requires d.specifiers == [Named(t, "interface")]
    ensures Expected([d], d.modulePath) == ModuleImports([], "", [t])
    ensures Contributes(d)
  {
    SpecNamesOne(d.specifiers[0], CodeBucket);
    SpecNamesOne(d.specifiers[0], TypeBucket);
    NamedNames(t, "interface", CodeBucket);
    NamedNames(t, "interface", TypeBucket);
    SpecNamesCount(d.specifiers);
    ExpectedOne(d);
  }

  /** The text left of `[d, code]` once `d` is removed. */
  lemma RemainingAfterFirst(d: ImportDecl, code: string)
    ensures ImportsOf([ImportItem(d), CodeItem(code)]) == [d]
    ensures Remaining([ImportItem(d), CodeItem(code)], [true]) == code
  {
    var items := [ImportItem(d), CodeItem(code)];
    assert items[1..] == [CodeItem(code)];
    assert items[1..][1..] == [];
    assert ImportsOf(items[1..]) == [];
    assert [true][1..] == [];
    assert Remaining(items[1..][1..], []) == "";
    assert Remaining(items[1..], []) == code;
  }

  /** `import { T } from 'p'` with `T` an interface collapses into one type-only line; the
      declaration is removed and the rest of the file follows the inserted block. */
  lemma PureTypeCollapse(text: string, t: string, path: string, code: string, eol: string)
    ensures
      var d := ImportDecl(text, None, None, [Named(t, "interface")], path);
      var r := Fix(SourceFile([], [], [], [ImportItem(d), CodeItem(code)]), eol);
      var line := "import type { " + t + " } from '" + path + "'";
      r.rewrittenImports == [line]
      && r.removed == [true]
      && r.text == line + eol + eol + code
  {
    var d := ImportDecl(text, None, None, [Named(t, "interface")], path);
    var f := SourceFile([], [], [], [ImportItem(d), CodeItem(code)]);
    RemainingAfterFirst(d, code);
    FixSingle(f, d, eol);
    PureTypeRecord(d, t);
    TypeOnlyLines(t, path);
    var line := "import type { " + t + " } from '" + path + "'";
    assert Join([line], eol) == line;
  }

  /** A file whose only import is a side-effect import has nothing to rewrite and keeps
      its text, apart from the two line terminators inserted in memory. */
  lemma SideEffectOnly(text: string, path: string, eol: string)
    ensures
      var d := ImportDecl(text, None, None, [], path);
      var r := Fix(FileOf([d]), eol);
      r.rewrittenImports == [] && r.removed == [false] && r.text == eol + eol + text
  {
    var d := ImportDecl(text, None, None, [], path);
    var f := FileOf([d]);
    ImportsOfFileOf([d]);
    FixSingle(f, d, eol);
    ExpectedOne(d);
    assert Expected([d], path) == NoImports;
    assert Plan(path, NoImports) == [];
    assert f.items == [ImportItem(d)];
    assert Remaining(f.items[1..], []) == "";
    assert Remaining(f.items, [false]) == text;
  }

  /** The record of `import D from 'p'` followed by `import { v, T } from 'p'`. */
  lemma MergedRecord(d1: ImportDecl, d2: ImportDecl, dflt: string, v: string, t: string)
    requires d1.defaultImport == Some(dflt) && d1.specifiers == []
    requires d2.defaultImport.None? && d2.modulePath == d1.modulePath
    requires d2.specifiers == [Named(v, "const"), Named(t, "type")]
    ensures Expected([d1, d2], d1.modulePath) == ModuleImports([v], dflt, [t])
    ensures Contributes(d1)
  {
    ValueTypeEntries(d2, v, "const", t, "type");
    ExpectedOne(d1);
    ExpectedTwo(d1, d2, d1.modulePath);
  }

  /** A default-only and a named declaration from one module merge into one record and
      come out as one default-plus-value line and one type line. */
  lemma SameModuleMerge(text1: string, text2: string, dflt: string, v: string, t: string, path: string, eol: string)
    requires dflt != ""
    ensures
      var d1 := ImportDecl(text1, Some(dflt), None, [], path);
      var d2 := ImportDecl(text2, None, None, [Named(v, "const"), Named(t, "type")], path);
      var r := Fix(FileOf([d1, d2]), eol);
      r.rewrittenImports == ["import " + dflt + ", { " + v + " } from '" + path + "'",
                             "import type { " + t + " } from '" + path + "'"]
      && r.removed == [true, true]
  {
    var d1 := ImportDecl(text1, Some(dflt), None, [], path);
    var d2 := ImportDecl(text2, None, None, [Named(v, "const"), Named(t, "type")], path);
    ImportsOfFileOf([d1, d2]);
    FixPair(FileOf([d1, d2]), d1, d2, eol);
    MergedRecord(d1, d2, dflt, v, t);
    DefaultValueTypeLines(dflt, v, t, path);
  }

  /** The record of `import { N as A } from 'p'` where `N` names both a class and an
      interface. */
  lemma AliasRecord(d: ImportDecl, name: string, alias: string)
    requires alias != "" && d.defaultImport.None?
    requires |d.specifiers| == 1 && d.specifiers[0].alias == Some(alias)
    requires d.specifiers[0].definitions == [Definition(name, "class"), Definition(name, "interface")]
    ensures Expected([d], d.modulePath) == ModuleImports([name + " as " + alias], "", [name + " as " + alias])
    ensures Contributes(d)
  {
    var s := d.specifiers[0];
    var defs := s.definitions;
    assert d.specifiers == [s];
    SpecNamesOne(s, CodeBucket);
    SpecNamesOne(s, TypeBucket);
    assert defs[..1] == [defs[0]];
    DefNamesOne(defs[0], s.alias, CodeBucket);
    DefNamesOne(defs[0], s.alias, TypeBucket);
    var shown := DisplayName(name, Some(alias));
    assert shown == name + " as " + alias;
    SpecNamesCount(d.specifiers);
    ExpectedOne(d);
  }

  /** An aliased specifier is emitted as the definition's own name followed by the alias,
      and a specifier resolving to both a class and an interface lands in both buckets. */
  lemma AliasAndMergedDeclaration(text: string, written: string, name: string, alias: string, path: string, eol: string)
    requires alias != ""
    ensures
      var s := Specifier(written, Some(alias), [Definition(name, "class"), Definition(name, "interface")]);
      var d := ImportDecl(text, None, None, [s], path);
      var r := Fix(FileOf([d]), eol);
      var shown := name + " as " + alias;
      r.rewrittenImports == ["import { " + shown + " } from '" + path + "'",
                             "import type { " + shown + " } from '" + path + "'"]
      && r.removed == [true]
  {
    var s := Specifier(written, Some(alias), [Definition(name, "class"), Definition(name, "interface")]);
    var d := ImportDecl(text, None, None, [s], path);
    ImportsOfFileOf([d]);
    FixSingle(FileOf([d]), d, eol);
    AliasRecord(d, name, alias);
    var shown := name + " as " + alias;
    ValueAndTypeLines(shown, shown, path);
  }

  /** The record of `import { T } from 'p'` followed by the side-effect import `import 'p'`. */
  lemma TypeThenSideEffectRecord(d1: ImportDecl, d2: ImportDecl, t: string)
    requires d1.defaultImport.None? && d1.specifiers == [Named(t, "interface")]
    requires d2.defaultImport.None? && d2.specifiers == [] && d2.modulePath == d1.modulePath
    ensures Expected([d1, d2], d1.modulePath) == ModuleImports([], "", [t])
    ensures Contributes(d1)
  {
    PureTypeRecord(d1, t);
    ExpectedTwo(d1, d2, d1.modulePath);
    assert DeclNames(d2, CodeBucket) == [] && DeclNames(d2, TypeBucket) == [];
  }

  /** A side-effect import that follows a rewritten declaration is removed with it and no
      line brings it back: the flag that decides removal is file-wide, not per
      declaration. */
  lemma SideEffectAfterChangeIsDropped(text1: string, text2: string, t: string, path: string, eol: string)
    ensures
      var d1 := ImportDecl(text1, None, None, [Named(t, "interface")], path);
      var d2 := ImportDecl(text2, None, None, [], path);
      var r := Fix(FileOf([d1, d2]), eol);
      r.rewrittenImports == ["import type { " + t + " } from '" + path + "'"]
      && r.removed == [true, true]
  {
    var d1 := ImportDecl(text1, None, None, [Named(t, "interface")], path);
    var d2 := ImportDecl(text2, None, None, [], path);
    ImportsOfFileOf([d1, d2]);
    FixPair(FileOf([d1, d2]), d1, d2, eol);
    TypeThenSideEffectRecord(d1, d2, t);
    TypeOnlyLines(t, path);
  }

  /** `import D from 'p'` alone stays a default import: the declaration is removed and
      re-emitted as `import D from 'p'`. */
  lemma DefaultOnlyImport(text: string, dflt: string, path: string, eol: string)
    requires dflt != ""
    ensures
      var d := ImportDecl(text, Some(dflt), None, [], path);
      var r := Fix(FileOf([d]), eol);
      r.rewrittenImports == ["import " + dflt + " from '" + path + "'"] && r.removed == [true]
  {
    var d := ImportDecl(text, Some(dflt), None, [], path);
    ImportsOfFileOf([d]);
    FixSingle(FileOf([d]), d, eol);
    ExpectedOne(d);
    assert DeclNames(d, CodeBucket) == [] && DeclNames(d, TypeBucket) == [];
    DefaultOnlyRow(path, ModuleImports([], dflt, []));
  }

  /** `import D, * as ns from 'p'` loses its namespace binding: the declaration is removed
      because of its default import, and only `import D from 'p'` is re-emitted. */
  lemma NamespaceImportDropped(text: string, dflt: string, ns: string, path: string, eol: string)
    requires dflt != ""
    ensures
      var d := ImportDecl(text, Some(dflt), Some(ns), [], path);
      var r := Fix(FileOf([d]), eol);
      r.rewrittenImports == ["import " + dflt + " from '" + path + "'"] && r.removed == [true]
  {
    var d := ImportDecl(text, Some(dflt), Some(ns), [], path);
    ImportsOfFileOf([d]);
    FixSingle(FileOf([d]), d, eol);
    ExpectedOne(d);
    assert DeclNames(d, CodeBucket) == [] && DeclNames(d, TypeBucket) == [];
    DefaultOnlyRow(path, ModuleImports([], dflt, []));
  }

  /** Three specifiers resolving to functions give three value entries, in specifier order. */
  lemma ThreeValueEntries(d: ImportDecl, a: string, b: string, c: string)
    requires d.specifiers == [Named(a, "function"), Named(b, "function"), Named(c, "function")]
    ensures DeclNames(d, CodeBucket) == [a, b, c] && DeclNames(d, TypeBucket) == []
    ensures DefinitionCount(d.specifiers) > 0
  {
    var specs := d.specifiers;
    assert specs[..2] == [specs[0], specs[1]];
    SpecNamesTwo(specs[0], specs[1], CodeBucket);
    SpecNamesTwo(specs[0], specs[1], TypeBucket);
    NamedNames(a, "function", CodeBucket);
    NamedNames(a, "function", TypeBucket);
    NamedNames(b, "function", CodeBucket);
    NamedNames(b, "function", TypeBucket);
    NamedNames(c, "function", CodeBucket);
    NamedNames(c, "function", TypeBucket);
    SpecNamesCount(specs);
  }

  /** A record of value entries only comes out as a single value line. */
  lemma CodeOnlyLines(names: seq<string>, path: string)
    requires names != []
    ensures ModuleLines(path, ModuleImports(names, "", [])) == ["import { " + Join(names, ", ") + " } from '" + path + "'"]
  {
    var rec := ModuleImports(names, "", []);
    CodeOnlyRow(path, rec);
    var lines := ModuleLines(path, rec);
    assert lines == [lines[0]];
  }

  /** Three entries joined in order. */
  lemma JoinThree(a: string, b: string, c: string)
    ensures Join([a, b, c], ", ") == a + ", " + b + ", " + c
  {
    JoinAppend([a], b, ", ");
    assert [a] + [b] == [a, b];
    JoinAppend([a, b], c, ", ");
    assert [a, b] + [c] == [a, b, c];
  }

  /** The value line of three entries lists them in order, separated by `, `. */
  lemma ThreeValueLines(a: string, b: string, c: string, path: string)
    ensures ModuleLines(path, ModuleImports([a, b, c], "", []))
            == ["import { " + (a + ", " + b + ", " + c) + " } from '" + path + "'"]
  {
    JoinThree(a, b, c);
    CodeOnlyLines([a, b, c], path);
  }

  /** `import { b, a, c } from 'p'`, all three functions, keeps the entries in the order
      they were written: the rewrite does not sort. */
  lemma ValuesKeepSourceOrder(text: string, a: string, b: string, c: string, path: string, eol: string)
    ensures
      var d := ImportDecl(text, None, None, [Named(a, "function"), Named(b, "function"), Named(c, "function")], path);
      var r := Fix(FileOf([d]), eol);
      r.rewrittenImports == ["import { " + (a + ", " + b + ", " + c) + " } from '" + path + "'"]
      && r.removed == [true]
  {
    var d := ImportDecl(text, None, None, [Named(a, "function"), Named(b, "function"), Named(c, "function")], path);
    ImportsOfFileOf([d]);
    FixSingle(FileOf([d]), d, eol);
    ThreeValueEntries(d, a, b, c);
    ExpectedOne(d);
    ThreeValueLines(a, b, c, path);
  }

  // ---------------------------------------------------------------------------------
  // Module paths named after inherited methods, as written and corrected.
  // ---------------------------------------------------------------------------------

  /** `import { T } from 'p'`, with `T` an interface and `p` named after an inherited
      method: the corrected rewrite turns it into a type-only import, the rewrite as
      written throws. */
  lemma PrototypePathThrows(text: string, t: string, path: string, eol: string)
    requires path in PrototypeMethods
    ensures
      var d := ImportDecl(text, None, None, [Named(t, "interface")], path);
      FixAsWritten(FileOf([d]), eol).None?
      && Fix(FileOf([d]), eol).rewrittenImports == ["import type { " + t + " } from '" + path + "'"]
  {
    var d := ImportDecl(text, None, None, [Named(t, "interface")], path);
    ImportsOfFileOf([d]);
    ThrowsOnPrototypePath(FileOf([d]), eol, 0);
    FixSingle(FileOf([d]), d, eol);
    PureTypeRecord(d, t);
    TypeOnlyLines(t, path);
  }

  /** The side-effect import `import 'toString'`: the corrected rewrite leaves the file
      alone, the rewrite as written throws. */
  lemma SideEffectPrototypePathThrows(text: string, eol: string)
    ensures
      var d := ImportDecl(text, None, None, [], "toString");
      FixAsWritten(FileOf([d]), eol).None?
      && Fix(FileOf([d]), eol).rewrittenImports == []
  {
    var d := ImportDecl(text, None, None, [], "toString");
    ImportsOfFileOf([d]);
    ThrowsOnPrototypePath(FileOf([d]), eol, 0);
    SideEffectOnly(text, "toString", eol);
  }
}

=== FILE: syntax.dfy ===
/**
 * The part of a TypeScript source file that the import rewrite reads, with the
 * type-checking host abstracted away: every named specifier already carries the
 * definitions its name resolves to.
 */
module Syntax {
  import opened Wrappers

  /** One resolved definition: the definition's own name and the kind the host reports
      for it ("type", "interface", "function", "class", "const", ...). */
  datatype Definition = Definition(name: string, kind: string)

  /** One `name as alias` entry inside the braces of a named import. `name` is the text
      written in the import; `definitions` is what the resolver returned for it. */
  datatype Specifier = Specifier(name: string, alias: Option<string>, definitions: seq<Definition>)

  /** One import declaration, `import Default, { specifiers } from 'modulePath'`, or its
      namespace form `import * as ns from 'modulePath'`, or the side-effect form
      `import 'modulePath'`. `text` is the declaration's own source text. */
  datatype ImportDecl = ImportDecl(
    text: string,
    defaultImport: Option<string>,
    namespaceImport: Option<string>,
    specifiers: seq<Specifier>,
    modulePath: string)

  /** What the rewrite collects for one module path. An empty `defaultImport` means that
      the module has no default import. */
  datatype ModuleImports = ModuleImports(codeImports: seq<string>, defaultImport: string, typeImports: seq<string>)

  /** The record created the first time a module path is seen. */
  const NoImports := ModuleImports([], "", [])

  /** A source file is a sequence of import declarations and other text, in file order. */
  datatype Item = ImportItem(decl: ImportDecl) | CodeItem(code: string)

  /** A source file with its three kinds of triple-slash reference directives. */
  datatype SourceFile = SourceFile(
    pathReferences: seq<string>,
    typeReferences: seq<string>,
    libReferences: seq<string>,
    items: seq<Item>)

  function ItemText(item: Item): string
  {
    match item
    case ImportItem(d) => d.text
    case CodeItem(c) => c
  }

  /** The import declarations of a file, in file order. */
  function ImportsOf(items: seq<Item>): (decls: seq<ImportDecl>)
    ensures |decls| <= |items|
    ensures forall d :: d in decls ==> ImportItem(d) in items
    ensures forall i :: 0 <= i < |items| && items[i].ImportItem? ==> items[i].decl in decls
  {
    if |items| == 0 then []
    else (if items[0].ImportItem? then [items[0].decl] else []) + ImportsOf(items[1..])
  }

  /** The whole text of a file. */
  function TextOf(items: seq<Item>): string
  {
    if |items| == 0 then "" else ItemText(items[0]) + TextOf(items[1..])
  }
}

=== FILE: synthesis.dfy ===
/**
 * Synthesis of the replacement import lines: 0 to 2 lines per module record, chosen by a
 * fixed decision table, then rendered as text.
 */
module Synthesis {
  import opened Syntax
  import opened AssocList

  /** The four shapes of synthesised line. */
  datatype ImportLine =
    | DefaultAndCode(defaultName: string, names: seq<string>, path: string)  // import D, { v, w } from 'path'
    | DefaultOnly(defaultName: string, path: string)                          // import D from 'path'
    | CodeOnly(names: seq<string>, path: string)                              // import { v, w } from 'path'
    | TypeOnly(names: seq<string>, path: string)                              // import type { T, U } from 'path'

  /** The first three rows of the decision table: the one line, if any, that carries the
      default import and the value entries. */
  function ValueLine(path: string, rec: ModuleImports): (lines: seq<ImportLine>)
    ensures |lines| <= 1
    ensures lines == [] <==> rec.defaultImport == "" && rec.codeImports == []
    ensures forall i :: 0 <= i < |lines| ==> !lines[i].TypeOnly? && lines[i].path == path
  {
    (if rec.defaultImport != "" && rec.codeImports != [] then [DefaultAndCode(rec.defaultImport, rec.codeImports, path)] else [])
    + (if rec.defaultImport != "" && rec.codeImports == [] then [DefaultOnly(rec.defaultImport, path)] else [])
    + (if rec.defaultImport == "" && rec.codeImports != [] then [CodeOnly(rec.codeImports, path)] else [])
  }

  /** The last row: a separate type-only line whenever there are type entries. */
  function TypeLine(path: string, rec: ModuleImports): (lines: seq<ImportLine>)
    ensures |lines| <= 1
    ensures lines == [] <==> rec.typeImports == []
    ensures forall i :: 0 <= i < |lines| ==> lines[i] == TypeOnly(rec.typeImports, path)
  {
    if rec.typeImports != [] then [TypeOnly(rec.typeImports, path)] else []
  }

  /** The decision table for one module record. */
  function Plan(path: string, rec: ModuleImports): (lines: seq<ImportLine>)
    ensures |lines| <= 2
    ensures lines == [] <==> rec == NoImports
    ensures forall i :: 0 <= i < |lines| ==> lines[i].path == path
    ensures rec.typeImports != [] <==> |lines| > 0 && lines[|lines| - 1].TypeOnly?
    ensures rec.typeImports != [] ==> lines[|lines| - 1] == TypeOnly(rec.typeImports, path)
  {
    var value := ValueLine(path, rec);
    var types := TypeLine(path, rec);
    value + types
  }

  /** What a sequence of synthesised lines imports, read back into a record. */
  function Unplan(lines: seq<ImportLine>): ModuleImports
  {
    if |lines| == 0 then NoImports
    else
      var rec := Unplan(lines[..|lines| - 1]);
      match lines[|lines| - 1]
      case DefaultAndCode(d, names, _) => rec.(defaultImport := d, codeImports := rec.codeImports + names)
      case DefaultOnly(d, _) => rec.(defaultImport := d)
      case CodeOnly(names, _) => rec.(codeImports := rec.codeImports + names)
      case TypeOnly(names, _) => rec.(typeImports := rec.typeImports + names)
  }

  /** The synthesised lines import exactly what the record holds: the default import, the
      value entries and the type entries, each in scan order. */
  lemma PlanRoundTrip(path: string, rec: ModuleImports)
    ensures Unplan(Plan(path, rec)) == rec
  {
    var value := ValueLine(path, rec);
    var types := TypeLine(path, rec);
    var lines := value + types;
    ValueRoundTrip(path, rec);
    if |types| == 1 {
      assert lines[..|lines| - 1] == value;
      assert lines[|lines| - 1] == TypeOnly(rec.typeImports, path);
      assert [] + rec.typeImports == rec.typeImports;
    } else {
      assert lines == value;
    }
  }

  /** The line carrying the default import and the value entries imports exactly those. */
  lemma ValueRoundTrip(path: string, rec: ModuleImports)
    ensures Unplan(ValueLine(path, rec)) == rec.(typeImports := [])
  {
    var value := ValueLine(path, rec);
    if |value| == 1 {
      assert value[..0] == [];
      assert [] + rec.codeImports == rec.codeImports;
    }
  }

  /** `Array.prototype.join`. */
  function Join(parts: seq<string>, sep: string): (r: string)
    ensures |parts| == 0 ==> r == ""
    ensures |parts| == 1 ==> r == parts[0]
  {
    if |parts| == 0 then ""
    else if |parts| == 1 then parts[0]
    else parts[0] + sep + Join(parts[1..], sep)
  }

  /** The text of one synthesised line. */
  function Render(line: ImportLine): string
  {
    match line
    case DefaultAndCode(d, names, path) => "import " + d + ", { " + Join(names, ", ") + " } from '" + path + "'"
    case DefaultOnly(d, path) => "import " + d + " from '" + path + "'"
    case CodeOnly(names, path) => "import { " + Join(names, ", ") + " } from '" + path + "'"
    case TypeOnly(names, path) => "import type { " + Join(names, ", ") + " } from '" + path + "'"
  }

  function RenderAll(lines: seq<ImportLine>): (r: seq<string>)
    ensures |r| == |lines|
    ensures forall i :: 0 <= i < |lines| ==> r[i] == Render(lines[i])
  {
    if |lines| == 0 then [] else [Render(lines[0])] + RenderAll(lines[1..])
  }

  /** The text lines of one module. */
  function ModuleLines(path: string, rec: ModuleImports): seq<string>
  {
    RenderAll(Plan(path, rec))
  }

  /** Joining one more part adds the separator and the part at the end: the parts come
      out in order, one separator between each two. */
  lemma {:induction false} JoinAppend(parts: seq<string>, x: string, sep: string)
    requires |parts| > 0
    ensures Join(parts + [x], sep) == Join(parts, sep) + sep + x
  {
    if |parts| == 1 {
      assert (parts + [x])[1..] == [x];
    } else {
      assert (parts + [x])[1..] == parts[1..] + [x];
      JoinAppend(parts[1..], x, sep);
    }
  }

  // The decision table, row by row, as text.

  /** Row 1: a default import and value entries share one line, `import D, { v, w }`;
      a type line follows iff there are type entries. */
  lemma DefaultAndCodeRow(path: string, rec: ModuleImports)
    requires rec.defaultImport != "" && rec.codeImports != []
    ensures |ModuleLines(path, rec)| == if rec.typeImports != [] then 2 else 1
    ensures ModuleLines(path, rec)[0]
            == "import " + rec.defaultImport + ", { " + Join(rec.codeImports, ", ") + " } from '" + path + "'"
  {
    assert Plan(path, rec)[0] == DefaultAndCode(rec.defaultImport, rec.codeImports, path);
  }

  /** Row 2: a default import without value entries is a line of its own, `import D`. */
  lemma DefaultOnlyRow(path: string, rec: ModuleImports)
    requires rec.defaultImport != "" && rec.codeImports == []
    ensures |ModuleLines(path, rec)| == if rec.typeImports != [] then 2 else 1
    ensures ModuleLines(path, rec)[0] == "import " + rec.defaultImport + " from '" + path + "'"
  {
    assert Plan(path, rec)[0] == DefaultOnly(rec.defaultImport, path);
  }

  /** Row 3: value entries without a default import, `import { v, w }`. */
  lemma CodeOnlyRow(path: string, rec: ModuleImports)
    requires rec.defaultImport == "" && rec.codeImports != []
    ensures |ModuleLines(path, rec)| == if rec.typeImports != [] then 2 else 1
    ensures ModuleLines(path, rec)[0] == "import { " + Join(rec.codeImports, ", ") + " } from '" + path + "'"
  {
    assert Plan(path, rec)[0] == CodeOnly(rec.codeImports, path);
  }

  /** Row 4: type entries come last, on a line of their own, `import type { T, U }`; with
      neither a default import nor value entries it is the only line. */
  lemma TypeRow(path: string, rec: ModuleImports)
    requires rec.typeImports != []
    ensures var lines := ModuleLines(path, rec);
            |lines| > 0
            && lines[|lines| - 1] == "import type { " + Join(rec.typeImports, ", ") + " } from '" + path + "'"
            && (|lines| == 1 <==> rec.defaultImport == "" && rec.codeImports == [])
  {
    var plan := Plan(path, rec);
    assert plan[|plan| - 1] == TypeOnly(rec.typeImports, path);
  }

  /** The text lines of all modules, records taken in first-seen order. */
  function AllLines(records: seq<Pair<string, ModuleImports>>): (lines: seq<string>)
  {
    if |records| == 0 then []
    else
      var last := records[|records| - 1];
      AllLines(records[..|records| - 1]) + ModuleLines(last.key, last.value)
  }

  /** At most two lines per module. */
  lemma {:induction false} AllLinesBound(records: seq<Pair<string, ModuleImports>>)
    ensures |AllLines(records)| <= 2 * |records|
  {
    if |records| > 0 {
      AllLinesBound(records[..|records| - 1]);
    }
  }

  /** No line at all iff every record is empty. */
  lemma AllLinesEmpty(records: seq<Pair<string, ModuleImports>>)
    ensures AllLines(records) == [] <==> forall i :: 0 <= i < |records| ==> records[i].value == NoImports
  {
    AllLinesLength(records);
    LineCountZero(records);
  }

  /** How many lines a record needs: one for the default import and the value entries
      if there are any, one for the type entries if there are any. */
  function Width(rec: ModuleImports): nat
  {
    (if rec.defaultImport != "" || rec.codeImports != [] then 1 else 0) + (if rec.typeImports != [] then 1 else 0)
  }

  /** The decision table chooses exactly as many lines as the record needs. */
  lemma PlanWidth(path: string, rec: ModuleImports)
    ensures |Plan(path, rec)| == Width(rec)
  {
  }

  /** The number of lines all records need. */
  function LineCount(records: seq<Pair<string, ModuleImports>>): nat
  {
    if |records| == 0 then 0
    else LineCount(records[..|records| - 1]) + Width(records[|records| - 1].value)
  }

  /** Rendering keeps one text line per chosen line. */
  lemma {:induction false} AllLinesLength(records: seq<Pair<string, ModuleImports>>)
    ensures |AllLines(records)| == LineCount(records)
  {
    if |records| > 0 {
      var last := records[|records| - 1];
      AllLinesLength(records[..|records| - 1]);
      assert |ModuleLines(last.key, last.value)| == |Plan(last.key, last.value)|;
      PlanWidth(last.key, last.value);
    }
  }

  lemma {:induction false} LineCountZero(records: seq<Pair<string, ModuleImports>>)
    ensures LineCount(records) == 0 <==> forall i :: 0 <= i < |records| ==> records[i].value == NoImports
  {
    if |records| > 0 {
      var n := |records|;
      var init := records[..n - 1];
      LineCountZero(init);
      assert forall i :: 0 <= i < n - 1 ==> init[i] == records[i];
    }
  }

  /** A module gets no line iff its record is empty. */
  lemma ModuleLinesEmpty(path: string, rec: ModuleImports)
    ensures ModuleLines(path, rec) == [] <==> rec == NoImports
  {
    assert |ModuleLines(path, rec)| == |Plan(path, rec)|;
  }
}

=== FILE: wrappers.dfy ===
/** An optional value: the model's stand-in for JavaScript's `undefined`. */
module Wrappers {

  datatype Option<+T> = None | Some(value: T)
}
